=== FILE: README.md ===
# IQOS storefront — a verified model of its core

The storefront sells IQOS devices ("gadget" products) and TEREA stick packs
("sticks"). This project models the parts of the storefront that make
decisions, and proves what they promise:

- **the cart store** (`store/cartStore.ts`): an ordered list of
  `{product, quantity}` entries that every action replaces wholesale. It holds
  one entry per product id, and it computes price and item totals;
- **the two server actions**, `placeOrder` and `submitContact`. Each one
  validates the form, writes to the database and sends e-mail best effort,
  then answers `{success, error}`;
- **the catalog query builder** `getProducts`, with `getProductBySlug` and
  `getAllSlugs`. The builder turns a request into the category filter, the
  page window, the ordering, the JSON attribute filters and the price bounds,
  and it fails soft on errors;
- **the client components that edit the address bar or derive what is shown**:
  - the URL paginator;
  - the client-side paged grid;
  - the filter sidebar;
  - the sort drop-down;
  - the add-to-cart control;
  - the product tile;
  - the record conversion `toProduct`.

Modules, one per source file:

| module | file | form |
|---|---|---|
| `Cart` | `cart_store.dfy` | class `CartStore` whose `items` the actions reassign, and the list functions they install |
| `Checkout`, `Contact`, `ActionSupport` | `checkout.dfy`, `contact.dfy`, `action_support.dfy` | methods that run the action's steps in order |
| `Catalog` | `catalog_api.dfy` | methods that extend the query step by step, proved against `QueryClauses` |
| `Pagination` | `pagination.dfy` | functions over a location (`pathname` plus query map) |
| `Grid` | `product_grid.dfy` | class `ProductGrid` holding the current page |
| `Filters` | `product_filters.dfy` | class `ProductFilters` holding the location and the two price boxes |
| `Sorting` | `sort_select.dfy` | functions over a location |
| `CartButton` | `add_to_cart_button.dfy` | methods on a `CartStore` and the pure view |
| `Card`, `Products` | `product_card.dfy`, `product.dfy` | pure conversions and captions |
| `Text`, `IntMath`, `UrlParams`, `Wrappers` | | `join`/split, decimal text, ASCII lower-casing, `Math.max`/`min`/`ceil`, the location, `Option` |

The outside world enters the model as parameters instead of being performed:

- what the database insert returned (`DbOutcome`: a row id, an error response
  or a thrown exception);
- whether the first e-mail send threw (`SendOutcome`);
- the e-mail environment variables (`EmailEnv`);
- the hosted store's answer to a query (a function from the clause list to a
  response);
- the schema library's e-mail check (`isEmail`).

Each action returns its result together with the list of outward calls it
issued, in order.

## Model

| member | source | states |
|---|---|---|
| Products.ToProduct | types/product.ts:19-44 | Id, slug and title are copied. A device keeps its image, price, line and colour. A stick pack takes the block image and the block price and keeps its brand. The category is `gadget` exactly for devices, and no quantity is set |
| Products.ToProductIsCategoryShaped | types/product.ts:20-43 | A converted product carries only its own category's optional fields. Devices have no brand; sticks have a brand but no line or colour |
| Cart.IndexOf | store/cartStore.ts:28 | `find` stops at the first entry with the id. No entry before it has the id; `None` means no entry has it |
| Cart.Without | store/cartStore.ts:41-45 | After `filter`, no entry has the id. Every entry with another id is kept, and the list never grows |
| Cart.Added | store/cartStore.ts:26-40 | An add keeps the length when the product is present. Otherwise the earlier entries are kept as they were and exactly the new entry, with the requested quantity, is appended |
| Cart.WithQuantity | store/cartStore.ts:46-52 | `updateQuantity` keeps the length, and leaves a cart without the id unchanged |
| Cart.AddToCartShape | store/cartStore.ts:26-40 | With unique ids, an existing product's entry gets `quantity` more, keeping its old snapshot, position and the rest of the list. A new product is appended as one entry |
| Cart.AddToCartEntry | store/cartStore.ts:26-40 | After an add, ids stay unique, and the product's entry is the earlier snapshot (or the given product) with the old quantity (or 0) plus `quantity` |
| Cart.RepeatedAddsAccumulate | store/cartStore.ts:26-40 | Any series of adds of one product leaves a single entry whose quantity is the sum of the added quantities on top of the earlier one |
| Cart.RemoveAbsent | store/cartStore.ts:41-45 | Removing an id that is not in the cart changes nothing |
| Cart.RemovePresent | store/cartStore.ts:41-45 | With unique ids, removing a present id drops exactly its entry and keeps the others in order |
| Cart.RemoveKeepsUnique | store/cartStore.ts:41-45 | Removal keeps ids unique and quantities positive |
| Cart.UpdateQuantityShape | store/cartStore.ts:46-52 | `updateQuantity` replaces only the matching entry's quantity, by `Math.max(1, q)`. An absent id leaves the cart unchanged |
| Cart.UpdateNeverRemoves | store/cartStore.ts:46-52 | Whatever quantity is asked for, a present entry stays at its position with a quantity of at least 1. The invariants are kept |
| Cart.TotalsOfConcat | store/cartStore.ts:56-61 | Both `reduce` totals are additive over concatenation |
| Cart.TotalsOfReplace | store/cartStore.ts:56-61 | Replacing one entry changes the totals by exactly the difference of its line total and quantity |
| Cart.AddToCartTotals | store/cartStore.ts:26-61 | An add raises the item total by `quantity` and the price total by `quantity` times the stored snapshot's price |
| Cart.RemoveFromCartTotals | store/cartStore.ts:41-61 | A removal lowers the item total by the entry's quantity and the price total by its line total. An absent id changes neither |
| Cart.TotalItemsCoversEntries | store/cartStore.ts:56-61 | With positive quantities there are at least as many items as entries, and an empty cart totals 0 |
| Cart.CartStore.constructor | store/cartStore.ts:25 | The store starts empty and well formed |
| Cart.CartStore.AddToCart | store/cartStore.ts:26-40 | Installs `Added(old items)`. A positive add keeps the store well formed, and the item total rises by the quantity |
| Cart.CartStore.RemoveFromCart | store/cartStore.ts:41-45 | Installs `Without(old items, id)` and keeps the store well formed |
| Cart.CartStore.UpdateQuantity | store/cartStore.ts:46-52 | Installs `WithQuantity(old items, id, q)` and keeps the store well formed |
| Cart.CartStore.ClearCart | store/cartStore.ts:53-55 | The cart becomes empty |
| Checkout.OrderItems | app/actions/checkout.ts:54-59 | One row per cart line, in cart order, carrying the order id, the product id, the quantity and the snapshot price |
| Checkout.FormIgnoresMessage | app/actions/checkout.ts:17 | The message is optional: its contents, or its absence, never decide whether the form passes |
| Checkout.FormValid | app/actions/checkout.ts:13-18 | The form is refused exactly when the name has fewer than 2 characters, the phone fewer than 10, or the e-mail fails the e-mail check. The message is never checked |
| Checkout.OrderRowsMatchTotal | app/actions/checkout.ts:31-59 | The header's `total_amount` is the sum of price × quantity over the item rows written with it |
| Checkout.PlaceOrder | app/actions/checkout.ts:22-140 | Validation, then the empty-cart check, come before any write. The header, with the total computed in the action from the submitted snapshot prices, is inserted first, then one item row per line. Each failure returns its own error and leaves the earlier writes in place. E-mails are attempted only after both inserts. Success holds iff the form is valid, the cart is non-empty and both inserts succeeded (details below the table) |
| Contact.SubmitContact | app/actions/contact.ts:20-71 | Invalid input fails with the form error and writes nothing. Otherwise the `new` message row is inserted first, and an insert failure answers the send error or the generic error. On success, only the internal notice is sent, and only when e-mail is configured. Success holds iff the form is valid and the insert succeeded |
| Contact.ContactValid | app/actions/contact.ts:11-16 | The contact schema accepts exactly what the checkout schema accepts for the same name, phone and e-mail, with a message of at least 10 characters on top |
| Catalog.PageWindowSpan | lib/api.ts:29-31 | A window spans exactly `limit` rows, page 1 starts at row 0, and each page starts right after the previous one |
| Catalog.PageWindowsDisjoint | lib/api.ts:29-31 | With a positive limit, an earlier page's window ends before any later page's window starts |
| Catalog.SortDispatch | lib/api.ts:34-46 | The sort chain is exactly the five-entry table. Any other value, or none, orders by ascending id |
| Catalog.SortClause | lib/api.ts:34-46 | The sort step always yields one order clause, and ascending id when no sort is given |
| Catalog.OrConditionDisjuncts | lib/api.ts:60-78 | The OR string splits back on `,` into one disjunct per value, in order. Values are `cs.["v"]` for `flavors` and `->>k.eq.v` otherwise |
| Catalog.FilterClause | lib/api.ts:51-86 | An entry contributes at most one clause, and none exactly when its value is falsy (missing or empty text, not an empty list) |
| Catalog.FilterClausesCount | lib/api.ts:49-88 | The filters add one clause per truthy entry, each a containment or an OR, never a price bound |
| Catalog.PriceMeaning | lib/api.ts:90-98 | Read as a condition on price, the query admits exactly the prices within the given inclusive bounds. An absent bound is open |
| Catalog.EntryClauses | lib/api.ts:50-87 | The `forEach` callback adds exactly `FilterClause(key, value)`. That is nothing for a falsy value, a boolean containment for `hasCapsule`, an OR for a list, and a containment of `[v]` for `flavors` or of `v` otherwise |
| Catalog.PriceClausesMeaning | lib/api.ts:90-98 | The price clauses admit a price exactly when it lies within the present bounds |
| Catalog.AddFilterClauses | lib/api.ts:49-88 | The `forEach` appends `FilterClauses(entries)` to the query, in entry order |
| Catalog.AddOrder | lib/api.ts:33-46 | Appends the one order clause `SortClause(sort)` |
| Catalog.AddPriceBounds | lib/api.ts:90-98 | Appends `gte`/`lte` for each present bound |
| Catalog.BuildQuery | lib/api.ts:23-98 | The built query is `QueryClauses(params)`: the category equality, then the page window with defaults page 1 and limit 12, then the order, the filters and the price bounds |
| Catalog.QueryClauses | lib/api.ts:23-98 | The query starts with the category equality, the page window (defaults page 1, limit 12) and the order clause, followed by one clause per truthy filter and the present price bounds |
| Catalog.GetProducts | lib/api.ts:23-108 | A failed query yields no rows and count 0. Otherwise the rows come back as returned, with a missing count read as 0 |
| Catalog.GetProductBySlug | lib/api.ts:110-119 | The single row, or nothing on any error |
| Catalog.GetAllSlugs | lib/api.ts:121-130 | The slugs in row order. An error or missing data yields none |
| IntMath.CeilDiv | components/Pagination.tsx:15 | `Math.ceil(n / d)` is the least number of `d`-sized pages that hold `n` items |
| Text.ParseDecimalText | components/Pagination.tsx:14-20 | Reading back a page number's decimal text gives the number |
| Text.ToLower | components/ProductCard.tsx:85 | Same length. Each ASCII upper-case letter becomes its lower-case letter, and every other character is unchanged |
| Pagination.CurrentPage | components/Pagination.tsx:14 | The current page is at least 1. It is the parsed `page` when that is a non-zero number, and 1 when the parameter is absent, reads as 0 or is not a number |
| Pagination.TotalPages | components/Pagination.tsx:15 | `Math.ceil(totalItems / itemsPerPage)`: enough pages for every item, and one fewer would not be |
| Pagination.HiddenWhenOnePage | components/Pagination.tsx:15-23 | The paginator renders nothing exactly when all items fit on one page; it has 0 pages exactly when there are no items |
| Pagination.TargetsInRange | components/Pagination.tsx:28-51 | "←" never targets below 1 and "→" never past the last page. From a page in range, both stay in range and move by one unless at an end |
| Pagination.PageNumbers | components/Pagination.tsx:36 | The page list is 1 … totalPages |
| Pagination.PageNumbersAscending | components/Pagination.tsx:36 | The page list is strictly ascending and holds exactly the pages 1 … totalPages |
| Pagination.PageUrl | components/Pagination.tsx:17-21 | A page URL keeps the pathname and every other parameter, and sets `page` to text that reads back as the page |
| Pagination.PageUrlRoundTrip | components/Pagination.tsx:17-21 | A page link keeps the pathname and every other parameter, and its `page` reads back as the page it was made for |
| Pagination.PageLinks | components/Pagination.tsx:36-47 | One link per page in order, each to that page's URL, active exactly for the current page |
| Pagination.PageLinksLeadToTheirPage | components/Pagination.tsx:36-47 | Link i shows page i+1, leads to a location whose current page is i+1, and is active iff i+1 is the current page |
| Pagination.Navigator | components/Pagination.tsx:11-58 | Nothing is rendered iff there is at most one page. Otherwise the arrows and links are the URLs above; "←" is disabled iff the current page is 1 and "→" iff it is the last page. The page size defaults to 12 |
| Pagination.NavigatorArrowsInRange | components/Pagination.tsx:27-57 | The rendered arrows lead to pages ≥ 1 and ≤ the last page, and within range whenever the current page is |
| Grid.PageItems | components/ProductGrid.tsx:16-19 | A page shows at most `itemsPerPage` products |
| Grid.FirstPagesPrefix | components/ProductGrid.tsx:14-19 | Pages 1 … n laid end to end are the first min(n·ipp, length) products |
| Grid.PagesCoverProducts | components/ProductGrid.tsx:14-19 | Pages 1 … totalPages laid end to end are exactly the product list: every product once, in order |
| Grid.PageItemsInRange | components/ProductGrid.tsx:14-19 | A page within 1 … totalPages is non-empty; a page past the end is empty |
| Grid.View | components/ProductGrid.tsx:21-65 | "Not found" iff the list is empty. Otherwise the current slice shows, with the button row present iff there is more than one page. The row holds the buttons 1..totalPages with the current page active, "Prev" disabled iff on page 1 and "Next" disabled iff on the last page |
| Grid.ValidPageShowsProducts | components/ProductGrid.tsx:13-19 | Any page the component can be on shows at least one product of a non-empty list |
| Grid.ProductGrid.constructor | components/ProductGrid.tsx:12-13 | The grid starts on page 1 with the given list and page size |
| Grid.ProductGrid.Prev | components/ProductGrid.tsx:36 | The page becomes `Math.max(1, p - 1)` and stays a real page |
| Grid.ProductGrid.Next | components/ProductGrid.tsx:58 | The page becomes `Math.min(totalPages, p + 1)` and stays a real page |
| Grid.ProductGrid.SelectPage | components/ProductGrid.tsx:43-46 | A page button moves to its page |
| Grid.ProductGrid.Visible | components/ProductGrid.tsx:16-19 | The shown slice is what the view renders for the current page: at most a page of products, and at least one of a non-empty list |
| Filters.ToggleFlips | components/ProductFilters.tsx:48-58 | A click flips whether the option is ticked and leaves no other option of that section ticked. It resets `page` to 1 and changes no other parameter |
| Filters.ToggleTwice | components/ProductFilters.tsx:48-58 | Two clicks on the same option restore the section when it held nothing or that option. When it held another option, they clear it |
| Filters.PriceRoundTrip | components/ProductFilters.tsx:70-79 | After "apply", reading the bounds back from the location gives exactly the typed text. `page` becomes 1 and nothing else moves |
| Filters.IsChecked | components/ProductFilters.tsx:112 | An option is ticked only when its section is in the location, and then exactly when the section holds that option |
| Filters.IsOn | components/ProductFilters.tsx:185-192 | A switch is on exactly when its parameter reads `true` |
| Filters.FlagFlips | components/ProductFilters.tsx:60-68 | A switch click turns the switch off when it was on and on when it was off, and sets `page` to 1 |
| Filters.ProductFilters.constructor | components/ProductFilters.tsx:33-34 | The price boxes start from the location's bounds |
| Filters.ProductFilters.SetMinPrice | components/ProductFilters.tsx:161 | Typing in the lower box changes only that box |
| Filters.ProductFilters.SetMaxPrice | components/ProductFilters.tsx:169 | Typing in the upper box changes only that box |
| Filters.ProductFilters.Navigate | components/ProductFilters.tsx:36-46 | Navigating installs the new parameters on the same pathname and re-reads both boxes from them |
| Filters.ProductFilters.HandleCheckboxChange | components/ProductFilters.tsx:48-58 | The location becomes the toggled parameters and the boxes are re-synced, dropping unapplied text |
| Filters.ProductFilters.HandleBooleanChange | components/ProductFilters.tsx:60-68 | The location becomes the parameters with the `true` flag toggled, so the switch flips; the boxes are re-synced |
| Filters.ProductFilters.ApplyPriceFilter | components/ProductFilters.tsx:70-79 | The typed bounds go into the location, and the boxes keep showing what was typed |
| Filters.ProductFilters.HandleClearFilters | components/ProductFilters.tsx:81-87 | The location loses every parameter, including page and sort, and both boxes are emptied |
| Sorting.SortChanged | components/SortSelect.tsx:14-27 | A non-empty choice sets `sort`, while the default removes it. Every other parameter, the page included, is kept |
| Sorting.CurrentSort | components/SortSelect.tsx:12 | The shown sort is the `sort` parameter, or the default (empty) option when there is none |
| Sorting.SortChoiceRoundTrip | components/SortSelect.tsx:38-41 | The drop-down shows the option just chosen, and each offered option reaches the catalog query as its table ordering. The default orders by id |
| CartButton.DecrementShape | components/AddToCartButton.tsx:36-44 | "−" lowers the entry by one when it holds more than one and removes it at one. It leaves a cart without the product unchanged and moves nothing else |
| CartButton.DecrementStep | components/AddToCartButton.tsx:36-44 | "−" lowers the shown quantity by one (not below 0), keeps the cart well formed, and lowers the item total by one when the product was present |
| CartButton.DecrementLowers | components/AddToCartButton.tsx:39-40 | "−" on an entry holding more than one lowers the shown quantity and the item total by one, keeping the cart well formed |
| CartButton.DecrementRemoves | components/AddToCartButton.tsx:41-43 | "−" on an entry holding one (or on an absent product) leaves the product out of the cart and lowers the item total by what it held |
| CartButton.DisplayedQuantity | components/AddToCartButton.tsx:21-22 | The shown quantity is the entry's quantity, or 0 when the product is not in the cart; in a cart of positive quantities it is positive exactly when the product is present |
| CartButton.IncrementStep | components/AddToCartButton.tsx:30-34 | "+" raises the shown quantity by one |
| CartButton.IncrementThenDecrement | components/AddToCartButton.tsx:30-44 | "+" then "−" gives back the original cart |
| CartButton.ButtonFor | components/AddToCartButton.tsx:46-96 | The control shows "loading" iff not mounted. Once mounted, it shows the stepper iff the product is in the cart, with its quantity. The add button is labelled "Нет в наличии" iff it is disabled |
| CartButton.HandleAdd | components/AddToCartButton.tsx:24-34 | Both "В корзину" and "+" add one of the product and keep the store well formed |
| CartButton.HandleDecrement | components/AddToCartButton.tsx:36-44 | Installs `Decremented(old items)` through `updateQuantity` or `removeFromCart`, keeping the store well formed |
| Card.MapToStoreProduct | components/ProductCard.tsx:15-28 | Copies id, slug, title, image, price and category. The brand is kept only when non-empty; line and colour come from the text attributes; no quantity is set |
| Card.CardAddPricesAtRow | components/ProductCard.tsx:15-28 | Adding a tile's product to a cart without it creates the entry keyed and priced by the row. The cart total rises by the row price |
| Card.DetailPathParses | components/ProductCard.tsx:38 | The link splits into `products`, `iqos` exactly for gadgets (else `terea`), and the slug |
| Card.DetailPath | components/ProductCard.tsx:38 | The link starts with `/products/` and ends with the slug |
| Card.OriginLabel | components/ProductCard.tsx:84-94 | The caption is the table entry for the lower-cased origin, or the origin as written when the table has none |
| Card.OriginLabelIgnoresCase | components/ProductCard.tsx:84-94 | Each of the five table keys is translated, and ASCII case variants of one of those keys get that key's caption. An origin outside the table is shown as written, so its case variants keep their own spelling |
| Card.FlavorsLabelSplitsBack | components/ProductCard.tsx:74-80 | The joined flavours of a comma-free list split back on `,` into the flavours, each but the first behind one space |
| Card.FlavorsLabel | components/ProductCard.tsx:74-80 | A list is always captioned, and a text only when non-empty, as itself |
| Card.CaptionsFollowCategory | components/ProductCard.tsx:70-98 | A device shows exactly "Цвет: " and its colour when it has a truthy text colour, and no caption otherwise. A stick pack shows its flavours caption exactly when its flavours are truthy and captionable, and its translated origin exactly when the origin is truthy text. The flavours come first, the origin last, and a pack never shows a colour |
| Card.Captions | components/ProductCard.tsx:70-98 | A tile shows at most two captions. Which ones, and when each is shown, is stated by `Card.CaptionsFollowCategory` |
| Card.BadgeLabels | components/ProductCard.tsx:52-56 | NEW, HIT and EXCLUSIVE each appear iff their flag is set, and each appears at most once |
| Card.BadgeOrder | components/ProductCard.tsx:52-56 | The badges appear in the order NEW, HIT, EXCLUSIVE. Their count is the number of set flags, and none appear iff no flag is set |
| Card.OutOfStockButton | components/ProductCard.tsx:115-123 | An out-of-stock product not in the cart gets a disabled "Нет в наличии" button. One already in the cart still gets the stepper |
| Card.AddDisabled | components/ProductCard.tsx:120 | With an empty cart, the tile's control is the add button, disabled and labelled "Нет в наличии" exactly when the product is out of stock |

`Checkout.PlaceOrder` proves, in order of the steps:

- Invalid form data fails with the form error, and an empty cart with "Корзина пуста". Neither writes anything.
- The header is inserted first, with status `pending` and the total computed in the action from the prices in the submitted cart snapshot (the client's prices are not re-read from the catalog).
- A failed header insert answers the create error, or the generic error when the call threw.
- The item rows for the new order id come next. If they fail, the header stays in place, nothing else follows, and the items error or the generic error is answered.
- After both inserts, the e-mails are attempted.
- Success holds iff the form is valid, the cart is non-empty and both inserts succeeded, whatever the e-mails did.

## Left out

- Database and e-mail calls: `placeOrder` and `submitContact` receive their outcomes as parameters. The model does not decide when a real insert fails, and it records the calls instead of making them.
- E-mail subjects and HTML bodies are not modelled. Only the sender and the recipient of each send are.
- `new Resend(...)` at module load: whatever the constructor does with a missing key is not modelled. The model decides whether e-mail is sent by the two environment variables alone.
- Form validation: the schema library's e-mail rule is the parameter `isEmail`. Minimum lengths are counted in Dafny characters, not UTF-16 code units.
- Text.ParseDecimal: `Number(...)` is modelled on digit strings only. A signed, fractional, exponent or space-padded `page` reads as "not a number", so `CurrentPage` gives 1 where the browser would give, say, −2 or 1.5.
- Products.ToProduct: `toProduct` casts on `category`; the model uses the record's own shape (`Iqos` or `Terea`). A device record mislabelled `sticks` is not represented.
- Card.TextAttribute: attributes that are not text (numbers, booleans) are read as absent for `line`, `color` and `origin`. Flavours that are neither text nor a list are not captioned.
- Text.ToLower: only ASCII letters are lower-cased, whereas JavaScript's `toLowerCase` also maps non-ASCII letters. Where that reaches an ASCII key the caption differs: U+212A KELVIN SIGN lower-cases to "k", so "\u212Aazakhstan" is translated by the component but shown as written by the model.
- URL query strings: `URLSearchParams` is a map with one value per key. Repeated keys, key order and serialisation are not modelled.
- Grid.ProductGrid: a new product list for a mounted grid (a props change) is not modelled. The page size is required to be positive, since a zero size gives an infinite page count in the source.
- `persist` to local storage under `iqos-cart-storage` (store/cartStore.ts:63-65) is not modelled: it is browser I/O.
- The pending-transition spinner of the filter sidebar and the sort drop-down is not modelled, nor is React's render scheduling. Each handler's navigation is applied at once, and the price boxes' re-sync effect runs right after it.
- The `query` field of `ProductParams` is not modelled; `getProducts` never reads it.
- Floating-point prices: prices and quantities are integers.
- The proxy route, the migration script, the page components and the forms are not part of this model. Only their contract with the modelled core is kept: the catalog pages pass the `sort` parameter as given (`Sorting.SortParam`).
- The store's `getTotalPrice` and `getTotalItems` are `Cart.TotalPrice` and `Cart.TotalItems` on the current items, and the lemmas above state their properties. The two accessor functions carry no contract of their own.

=== FILE: action_support.dfy ===
/** What the two server actions (`placeOrder`, `submitContact`) have in
    common: the `{success, error}` result, the environment that decides
    whether e-mail is sent, and the outcomes of the database and e-mail calls,
    which the model receives as parameters instead of performing them. */
module ActionSupport {
  import opened Wrappers

  /** `{ success: boolean, error?: string }` */
  datatype ActionResult = ActionResult(success: bool, error: Option<string>)

  const Success := ActionResult(true, None)

  function Failure(message: string): (r: ActionResult)
    ensures !r.success && r.error == Some(message)
  {
    ActionResult(false, Some(message))
  }

  /** Reported when the form schema rejects the input (a `ZodError`). */
  const InvalidFormError := "Неверные данные формы"
  /** Reported for any other exception caught by the action's outer `catch`. */
  const UnexpectedError := "Произошла непредвиденная ошибка"

  /** `process.env.RESEND_API_KEY` and `process.env.INTERNAL_EMAIL`. */
  datatype EmailEnv = EmailEnv(apiKey: Option<string>, internalEmail: Option<string>)

  /** `process.env.RESEND_API_KEY && INTERNAL_EMAIL`: both set and non-empty. */
  predicate EmailConfigured(env: EmailEnv) {
    && env.apiKey.Some? && env.apiKey.value != ""
    && env.internalEmail.Some? && env.internalEmail.value != ""
  }

  /** What an awaited insert produced: a row id, an `error` in the response,
      or an exception thrown by the client. */
  datatype DbOutcome = DbOk(id: int) | DbError | DbThrew

  /** What an awaited e-mail send did: delivered, resolved with an error
      (which the actions never inspect), or threw. */
  datatype SendOutcome = Delivered | Rejected | SendThrew
}

=== FILE: add_to_cart_button.dfy ===
/** The add-to-cart control (`components/AddToCartButton.tsx`): a plain button
    while the product is not in the cart, a − n + stepper once it is. The
    handlers call the cart store's actions. */
module CartButton {
  import opened Wrappers
  import opened IntMath
  import opened Products
  import opened Cart

  const OutOfStockLabel := "Нет в наличии"
  const AddLabel := "В корзину"

  /** `cartItem?.quantity || 0`: the quantity in the cart, 0 when absent. */
  function DisplayedQuantity(items: seq<CartItem>, id: int): (quantity: int)
    ensures Find(items, id).None? ==> quantity == 0
    ensures Find(items, id).Some? ==> quantity == Find(items, id).value.quantity
    ensures QuantitiesPositive(items) ==> (quantity > 0 <==> Find(items, id).Some?)
  {
    match Find(items, id)
    case Some(e) => e.quantity
    case None => 0
  }

  /** The list `handleDecrement` leaves: one less while more than one is in the
      cart, otherwise the entry is removed. */
  function Decremented(items: seq<CartItem>, id: int): seq<CartItem> {
    var quantity := DisplayedQuantity(items, id);
    if quantity > 1 then WithQuantity(items, id, quantity - 1) else Without(items, id)
  }

  /** In a well-formed cart, "−" replaces the product's entry by one with one
      less when it holds more than one, removes the entry when it holds one,
      and leaves a cart without the product unchanged; nothing else moves. */
  lemma DecrementShape(items: seq<CartItem>, id: int)
    requires UniqueIds(items) && QuantitiesPositive(items)
    ensures IndexOf(items, id).None? ==> Decremented(items, id) == items
    ensures IndexOf(items, id).Some? ==>
              var k := IndexOf(items, id).value;
              && (items[k].quantity > 1 ==> Decremented(items, id) == items[k := items[k].(quantity := items[k].quantity - 1)])
              && (items[k].quantity == 1 ==> Decremented(items, id) == items[..k] + items[k + 1..])
  {
    match IndexOf(items, id)
    case None =>
      RemoveAbsent(items, id);
    case Some(k) =>
      if items[k].quantity > 1 {
        UpdateQuantityShape(items, id, items[k].quantity - 1);
      } else {
        RemovePresent(items, id);
      }
  }

  /** "−" lowers the shown quantity by one (never below 0), keeps the cart
      well formed and lowers the item total by one when the product was in
      the cart. */
  lemma DecrementStep(items: seq<CartItem>, id: int)
    requires UniqueIds(items) && QuantitiesPositive(items)
    ensures UniqueIds(Decremented(items, id)) && QuantitiesPositive(Decremented(items, id))
    ensures DisplayedQuantity(Decremented(items, id), id) == Max(0, DisplayedQuantity(items, id) - 1)
    ensures TotalItems(Decremented(items, id)) == TotalItems(items) - (if Find(items, id).Some? then 1 else 0)
  {
    if IndexOf(items, id).Some? && items[IndexOf(items, id).value].quantity > 1 {
      DecrementLowers(items, id);
    } else {
      DecrementRemoves(items, id);
    }
  }

  /** "−" on an entry holding more than one. */
  lemma DecrementLowers(items: seq<CartItem>, id: int)
    requires UniqueIds(items) && QuantitiesPositive(items)
    requires IndexOf(items, id).Some? && items[IndexOf(items, id).value].quantity > 1
    ensures UniqueIds(Decremented(items, id)) && QuantitiesPositive(Decremented(items, id))
    ensures DisplayedQuantity(Decremented(items, id), id) == DisplayedQuantity(items, id) - 1
    ensures TotalItems(Decremented(items, id)) == TotalItems(items) - 1
  {
    var k := IndexOf(items, id).value;
    var lowered := items[k].(quantity := items[k].quantity - 1);
    assert DisplayedQuantity(items, id) == items[k].quantity;
    DecrementShape(items, id);
    assert Decremented(items, id) == items[k := lowered];
    UpdateNeverRemoves(items, id, items[k].quantity - 1);
    TotalsOfReplace(items, k, lowered);
  }

  /** "−" on an entry holding one, or on a product not in the cart. */
  lemma DecrementRemoves(items: seq<CartItem>, id: int)
    requires UniqueIds(items) && QuantitiesPositive(items)
    requires IndexOf(items, id).Some? ==> items[IndexOf(items, id).value].quantity <= 1
    ensures UniqueIds(Decremented(items, id)) && QuantitiesPositive(Decremented(items, id))
    ensures DisplayedQuantity(Decremented(items, id), id) == 0
    ensures TotalItems(Decremented(items, id)) == TotalItems(items) - (if Find(items, id).Some? then 1 else 0)
  {
    assert Decremented(items, id) == Without(items, id);
    RemoveKeepsUnique(items, id);
    RemoveFromCartTotals(items, id);
  }

  /** "+" (and the first "В корзину" click) raises the shown quantity by one. */
  lemma IncrementStep(items: seq<CartItem>, product: Product)
    requires UniqueIds(items)
    ensures DisplayedQuantity(Added(items, product, 1), product.id) == DisplayedQuantity(items, product.id) + 1
  {
    AddToCartEntry(items, product, 1);
  }

  /** "+" followed by "−" gives back the cart it started from. */
  lemma IncrementThenDecrement(items: seq<CartItem>, product: Product)
    requires UniqueIds(items) && QuantitiesPositive(items)
    ensures Decremented(Added(items, product, 1), product.id) == items
  {
    var id := product.id;
    var added := Added(items, product, 1);
    AddToCartShape(items, product, 1);
    AddToCartEntry(items, product, 1);
    match IndexOf(items, id)
    case None =>
      assert added == items + [CartItem(product, 1)];
      assert DisplayedQuantity(added, id) == 1;
      assert IndexOf(added, id) == Some(|items|) by {
        assert added[|items|].product.id == id;
        assert forall j :: 0 <= j < |items| ==> added[j] == items[j];
      }
      RemovePresent(added, id);
      assert added[..|items|] == items;
    case Some(k) =>
      var q := items[k].quantity;
      assert added == items[k := items[k].(quantity := q + 1)];
      assert DisplayedQuantity(added, id) == q + 1;
      assert IndexOf(added, id) == Some(k) by {
        assert added[k].product.id == id;
        assert forall j :: 0 <= j < |items| ==> added[j].product.id == items[j].product.id;
      }
      UpdateQuantityShape(added, id, q);
      assert added[k := added[k].(quantity := Max(1, q))] == items;
  }

  /** What the control shows. */
  datatype ButtonView =
    | Loading
    | Stepper(quantity: int)
    | AddButton(disabled: bool, caption: string)

  /** Before hydration a disabled "loading" button; then the stepper while the
      product is in the cart, otherwise the add button, labelled by whether it
      is disabled. */
  function ButtonFor(mounted: bool, items: seq<CartItem>, id: int, disabled: bool): (view: ButtonView)
    ensures !mounted <==> view.Loading?
    ensures mounted && QuantitiesPositive(items) ==> (view.Stepper? <==> Find(items, id).Some?)
    ensures view.Stepper? ==> view.quantity == DisplayedQuantity(items, id) && view.quantity > 0
    ensures view.AddButton? ==> view.disabled == disabled && (view.caption == OutOfStockLabel <==> disabled)
  {
    var quantity := DisplayedQuantity(items, id);
    if !mounted then Loading
    else if quantity > 0 then Stepper(quantity)
    else AddButton(disabled, if disabled then OutOfStockLabel else AddLabel)
  }

  /** `handleAdd` and `handleIncrement`: both add one of the product. */
  method HandleAdd(cart: CartStore, product: Product)
    modifies cart
    ensures cart.items == Added(old(cart.items), product, 1)
    ensures old(cart.Valid()) ==> cart.Valid()
  {
    cart.AddToCart(product);
  }

  /** `handleDecrement`: `updateQuantity(id, quantity - 1)` while more than one
      is in the cart, otherwise `removeFromCart(id)`. */
  method HandleDecrement(cart: CartStore, product: Product)
    modifies cart
    ensures cart.items == Decremented(old(cart.items), product.id)
    ensures old(cart.Valid()) ==> cart.Valid()
  {
    var quantity := DisplayedQuantity(cart.items, product.id);
    if quantity > 1 {
      cart.UpdateQuantity(product.id, quantity - 1);
    } else {
      cart.RemoveFromCart(product.id);
    }
  }
}

=== FILE: cart_store.dfy ===
/** The client-side cart: an ordered list of `{product, quantity}` entries and
    the store's actions over it (`store/cartStore.ts`). Each action replaces
    the whole list with one computed from the old one; the functions below are
    those computations, and `CartStore` is the store whose `items` field the
    actions reassign. */
module Cart {
  import opened Wrappers
  import opened Products
  import opened IntMath

  datatype CartItem = CartItem(product: Product, quantity: int)

  /** Position of the first entry for product `id` (the index `find` stops at). */
  function IndexOf(items: seq<CartItem>, id: int): (r: Option<nat>)
    ensures r.Some? ==> r.value < |items| && items[r.value].product.id == id
    ensures r.Some? ==> forall j :: 0 <= j < r.value ==> items[j].product.id != id
    ensures r.None? ==> forall j :: 0 <= j < |items| ==> items[j].product.id != id
  {
    if items == [] then None
    else if items[0].product.id == id then Some(0)
    else match IndexOf(items[1..], id)
      case None => None
      case Some(k) => Some(k + 1)
  }

  /** `items.find((item) => item.product.id === id)` */
  function Find(items: seq<CartItem>, id: int): Option<CartItem>
  {
    match IndexOf(items, id)
    case Some(k) => Some(items[k])
    case None => None
  }

  /** The cart invariant: at most one entry per product id. */
  predicate UniqueIds(items: seq<CartItem>) {
    forall i, j :: 0 <= i < j < |items| ==> items[i].product.id != items[j].product.id
  }

  predicate QuantitiesPositive(items: seq<CartItem>) {
    forall i :: 0 <= i < |items| ==> items[i].quantity >= 1
  }

  /** The `map` of `addToCart`: every entry for `id` gets `quantity` more. */
  function Bumped(items: seq<CartItem>, id: int, quantity: int): seq<CartItem>
  {
    seq(|items|, j requires 0 <= j < |items| =>
      if items[j].product.id == id then items[j].(quantity := items[j].quantity + quantity)
      else items[j])
  }

  /** The list `addToCart(product, quantity)` installs. */
  function Added(items: seq<CartItem>, product: Product, quantity: int): (r: seq<CartItem>)
    ensures IndexOf(items, product.id).Some? ==> |r| == |items|
    ensures IndexOf(items, product.id).None? ==>
              |r| == |items| + 1 && r[..|items|] == items && r[|items|] == CartItem(product, quantity)
  {
    if IndexOf(items, product.id).Some? then Bumped(items, product.id, quantity)
    else items + [CartItem(product, quantity)]
  }

  /** The list `removeFromCart(id)` installs: the `filter` keeping other ids. */
  function Without(items: seq<CartItem>, id: int): (r: seq<CartItem>)
    ensures |r| <= |items|
    ensures forall i :: 0 <= i < |r| ==> r[i].product.id != id
    ensures forall j :: 0 <= j < |items| && items[j].product.id != id ==> items[j] in r
  {
    if items == [] then []
    else
      var rest := Without(items[1..], id);
      assert forall j :: 1 <= j < |items| ==> items[j] == items[1..][j - 1];
      if items[0].product.id == id then rest else [items[0]] + rest
  }

  /** The list `updateQuantity(id, quantity)` installs: matching entries get
      `Math.max(1, quantity)`. */
  function WithQuantity(items: seq<CartItem>, id: int, quantity: int): (r: seq<CartItem>)
    ensures |r| == |items|
    ensures IndexOf(items, id).None? ==> r == items
  {
    seq(|items|, j requires 0 <= j < |items| =>
      if items[j].product.id == id then items[j].(quantity := Max(1, quantity))
      else items[j])
  }

  function LineTotal(item: CartItem): int {
    item.product.price * item.quantity
  }

  /** `getTotalPrice`: the sum of price × quantity over the entries. */
  function TotalPrice(items: seq<CartItem>): int
  {
    if items == [] then 0 else LineTotal(items[0]) + TotalPrice(items[1..])
  }

  /** `getTotalItems`: the sum of the quantities. */
  function TotalItems(items: seq<CartItem>): int
  {
    if items == [] then 0 else items[0].quantity + TotalItems(items[1..])
  }

  // ---------------------------------------------------------------------
  // addToCart

  /** Adding a product already in a well-formed cart changes that entry's
      quantity only, keeping its stored snapshot, the length and the order;
      adding a new product appends exactly one entry at the end. */
  lemma AddToCartShape(items: seq<CartItem>, product: Product, quantity: int)
    requires UniqueIds(items)
    ensures IndexOf(items, product.id).None? ==>
              Added(items, product, quantity) == items + [CartItem(product, quantity)]
    ensures IndexOf(items, product.id).Some? ==>
              var k := IndexOf(items, product.id).value;
              Added(items, product, quantity) == items[k := items[k].(quantity := items[k].quantity + quantity)]
  {
    if IndexOf(items, product.id).Some? {
      var k := IndexOf(items, product.id).value;
      var r := Added(items, product, quantity);
      var e := items[k := items[k].(quantity := items[k].quantity + quantity)];
      forall j | 0 <= j < |items| ensures r[j] == e[j] {
        if j != k {
          assert items[j].product.id != items[k].product.id;
        }
      }
    }
  }

  /** After `addToCart` the product has exactly the entry the store promises:
      the earlier snapshot (or the given product when new) with the added
      quantity on top of the earlier one (or of 0), and ids stay unique. */
  lemma AddToCartEntry(items: seq<CartItem>, product: Product, quantity: int)
    requires UniqueIds(items)
    ensures UniqueIds(Added(items, product, quantity))
    ensures Find(Added(items, product, quantity), product.id) ==
              match Find(items, product.id)
              case Some(e) => Some(CartItem(e.product, e.quantity + quantity))
              case None => Some(CartItem(product, quantity))
  {
    var r := Added(items, product, quantity);
    AddToCartShape(items, product, quantity);
    match IndexOf(items, product.id)
    case Some(k) =>
      assert IndexOf(r, product.id) == Some(k) by {
        var k' := IndexOf(r, product.id);
        assert r[k].product.id == product.id;
        assert k'.Some? && k'.value <= k;
        assert items[k'.value].product.id == product.id;
      }
    case None =>
      assert r[|items|].product.id == product.id;
      assert forall j :: 0 <= j < |items| ==> r[j] == items[j];
      assert IndexOf(r, product.id) == Some(|items|);
  }

  /** The add applied once per requested quantity, in order. */
  function AddedAll(items: seq<CartItem>, product: Product, quantities: seq<int>): seq<CartItem>
    decreases |quantities|
  {
    if quantities == [] then items
    else AddedAll(Added(items, product, quantities[0]), product, quantities[1..])
  }

  function Sum(xs: seq<int>): int {
    if xs == [] then 0 else xs[0] + Sum(xs[1..])
  }

  /** Repeated adds of one product leave a single entry for it whose quantity
      is the sum of the requested quantities (on top of any earlier entry's). */
  /** The entry a product has after adds totalling `total`, given its entry
      before them (if any). */
  function AfterAdds(before: Option<CartItem>, product: Product, total: int): CartItem {
    match before
    case Some(e) => CartItem(e.product, e.quantity + total)
    case None => CartItem(product, total)
  }

  lemma {:induction false} RepeatedAddsAccumulate(items: seq<CartItem>, product: Product, quantities: seq<int>)
    requires UniqueIds(items)
    requires quantities != []
    decreases |quantities|
    ensures UniqueIds(AddedAll(items, product, quantities))
    ensures Find(AddedAll(items, product, quantities), product.id) == Some(AfterAdds(Find(items, product.id), product, Sum(quantities)))
  {
    var once := Added(items, product, quantities[0]);
    var later := quantities[1..];
    AddToCartEntry(items, product, quantities[0]);
    var before := Find(items, product.id);
    assert Find(once, product.id) == Some(AfterAdds(before, product, quantities[0]));
    assert AddedAll(items, product, quantities) == AddedAll(once, product, later);
    assert Sum(quantities) == quantities[0] + Sum(later);
    if later == [] {
      assert AddedAll(once, product, later) == once;
    } else {
      RepeatedAddsAccumulate(once, product, later);
      assert AfterAdds(Some(AfterAdds(before, product, quantities[0])), product, Sum(later))
          == AfterAdds(before, product, quantities[0] + Sum(later));
    }
  }

  // ---------------------------------------------------------------------
  // removeFromCart

  /** Removing an id that is not in the cart leaves it unchanged. */
  lemma {:induction false} RemoveAbsent(items: seq<CartItem>, id: int)
    requires IndexOf(items, id).None?
    ensures Without(items, id) == items
  {
    if items != [] {
      RemoveAbsent(items[1..], id);
      assert [items[0]] + items[1..] == items;
    }
  }

  /** In a well-formed cart, removing a present id drops exactly its entry and
      keeps the others in order. */
  lemma {:induction false} RemovePresent(items: seq<CartItem>, id: int)
    requires UniqueIds(items)
    requires IndexOf(items, id).Some?
    ensures var k := IndexOf(items, id).value;
            Without(items, id) == items[..k] + items[k + 1..]
  {
    var k := IndexOf(items, id).value;
    var tail := items[1..];
    TailUnique(items);
    if k == 0 {
      HeadNotInTail(items);
      RemoveAbsent(tail, id);
    } else {
      IndexInTail(items, id);
      RemovePresent(tail, id);
      var rest := Without(tail, id);
      assert rest == tail[..k - 1] + tail[k..];
      assert Without(items, id) == [items[0]] + rest;
      assert tail[..k - 1] == items[1..k] && tail[k..] == items[k + 1..];
      assert [items[0]] + items[1..k] == items[..k];
    }
  }

  /** The tail of a well-formed cart is well formed. */
  lemma TailUnique(items: seq<CartItem>)
    requires UniqueIds(items) && items != []
    ensures UniqueIds(items[1..])
  {
    var tail := items[1..];
    forall i, j | 0 <= i < j < |tail| ensures tail[i].product.id != tail[j].product.id {
      assert tail[i] == items[i + 1] && tail[j] == items[j + 1];
    }
  }

  /** In a well-formed cart the head's id occurs nowhere in the tail. */
  lemma HeadNotInTail(items: seq<CartItem>)
    requires UniqueIds(items) && items != []
    ensures IndexOf(items[1..], items[0].product.id).None?
  {
    var tail := items[1..];
    forall j | 0 <= j < |tail| ensures tail[j].product.id != items[0].product.id {
      assert tail[j] == items[j + 1];
    }
  }

  /** Past the head, an id's position in the tail is one less. */
  lemma IndexInTail(items: seq<CartItem>, id: int)
    requires IndexOf(items, id).Some? && IndexOf(items, id).value > 0
    ensures IndexOf(items[1..], id) == Some(IndexOf(items, id).value - 1)
  {
    assert items[0].product.id != id;
  }

  /** Dropping the entry at one position keeps ids unique and quantities
      positive. */
  lemma DropKeepsInvariants(items: seq<CartItem>, k: nat)
    requires k < |items| && UniqueIds(items) && QuantitiesPositive(items)
    ensures UniqueIds(items[..k] + items[k + 1..]) && QuantitiesPositive(items[..k] + items[k + 1..])
  {
    var r := items[..k] + items[k + 1..];
    assert forall i :: 0 <= i < |r| ==> r[i] == items[if i < k then i else i + 1];
  }

  lemma {:induction false} RemoveKeepsUnique(items: seq<CartItem>, id: int)
    requires UniqueIds(items) && QuantitiesPositive(items)
    ensures UniqueIds(Without(items, id)) && QuantitiesPositive(Without(items, id))
  {
    if IndexOf(items, id).Some? {
      RemovePresent(items, id);
      DropKeepsInvariants(items, IndexOf(items, id).value);
    } else {
      RemoveAbsent(items, id);
    }
  }

  // ---------------------------------------------------------------------
  // updateQuantity

  /** `updateQuantity` sets the matching entry to at least 1, never removes it,
      and changes nothing else; an absent id leaves the cart unchanged. */
  lemma UpdateQuantityShape(items: seq<CartItem>, id: int, quantity: int)
    requires UniqueIds(items)
    ensures IndexOf(items, id).None? ==> WithQuantity(items, id, quantity) == items
    ensures IndexOf(items, id).Some? ==>
              var k := IndexOf(items, id).value;
              WithQuantity(items, id, quantity) == items[k := items[k].(quantity := Max(1, quantity))]
  {
    var r := WithQuantity(items, id, quantity);
    if IndexOf(items, id).Some? {
      var k := IndexOf(items, id).value;
      var e := items[k := items[k].(quantity := Max(1, quantity))];
      forall j | 0 <= j < |items| ensures r[j] == e[j] {
        if j != k {
          assert items[j].product.id != items[k].product.id;
        }
      }
    }
  }

  /** Whatever quantity is asked for, a present entry stays, with at least 1. */
  lemma UpdateNeverRemoves(items: seq<CartItem>, id: int, quantity: int)
    requires IndexOf(items, id).Some?
    ensures IndexOf(WithQuantity(items, id, quantity), id) == IndexOf(items, id)
    ensures Find(WithQuantity(items, id, quantity), id).Some?
    ensures Find(WithQuantity(items, id, quantity), id).value.quantity >= 1
    ensures QuantitiesPositive(items) ==> QuantitiesPositive(WithQuantity(items, id, quantity))
    ensures UniqueIds(items) ==> UniqueIds(WithQuantity(items, id, quantity))
  {
    var r := WithQuantity(items, id, quantity);
    var k := IndexOf(items, id).value;
    assert r[k].product.id == id;
    assert IndexOf(r, id).value == k;
  }

  // ---------------------------------------------------------------------
  // Totals

  lemma {:induction false} TotalsOfConcat(a: seq<CartItem>, b: seq<CartItem>)
    ensures TotalPrice(a + b) == TotalPrice(a) + TotalPrice(b)
    ensures TotalItems(a + b) == TotalItems(a) + TotalItems(b)
  {
    if a == [] {
      assert a + b == b;
    } else {
      TotalsOfConcat(a[1..], b);
      assert (a + b)[1..] == a[1..] + b;
    }
  }

  lemma TotalsOfReplace(items: seq<CartItem>, k: nat, x: CartItem)
    requires k < |items|
    ensures TotalPrice(items[k := x]) == TotalPrice(items) - LineTotal(items[k]) + LineTotal(x)
    ensures TotalItems(items[k := x]) == TotalItems(items) - items[k].quantity + x.quantity
  {
    assert items == items[..k] + [items[k]] + items[k + 1..];
    assert items[k := x] == items[..k] + [x] + items[k + 1..];
    TotalsOfConcat(items[..k] + [items[k]], items[k + 1..]);
    TotalsOfConcat(items[..k], [items[k]]);
    TotalsOfConcat(items[..k] + [x], items[k + 1..]);
    TotalsOfConcat(items[..k], [x]);
  }

  /** `quantity` more of an entry adds `quantity` times its price. */
  lemma LineGrowth(price: int, quantity: int, more: int)
    ensures price * (quantity + more) == price * quantity + more * price
  {
  }

  /** Appending an entry adds its quantity and its line total. */
  lemma TotalsOfAppend(items: seq<CartItem>, x: CartItem)
    ensures TotalItems(items + [x]) == TotalItems(items) + x.quantity
    ensures TotalPrice(items + [x]) == TotalPrice(items) + x.quantity * x.product.price
  {
    assert [x][1..] == [];
    TotalsOfConcat(items, [x]);
  }

  /** Adding `quantity` of a product raises the item total by `quantity` and
      the price total by `quantity` times the stored snapshot's price (the
      earlier price when the product was already in the cart). */
  lemma AddToCartTotals(items: seq<CartItem>, product: Product, quantity: int)
    requires UniqueIds(items)
    ensures TotalItems(Added(items, product, quantity)) == TotalItems(items) + quantity
    ensures TotalPrice(Added(items, product, quantity)) ==
              TotalPrice(items) + quantity * (match Find(items, product.id)
                                              case Some(e) => e.product.price
                                              case None => product.price)
  {
    AddToCartShape(items, product, quantity);
    match IndexOf(items, product.id)
    case Some(k) =>
      var e := items[k];
      assert Find(items, product.id) == Some(e);
      TotalsOfReplace(items, k, e.(quantity := e.quantity + quantity));
      LineGrowth(e.product.price, e.quantity, quantity);
    case None =>
      TotalsOfAppend(items, CartItem(product, quantity));
  }

  /** Removing a product lowers the item total by its quantity and the price
      total by its line total. */
  lemma RemoveFromCartTotals(items: seq<CartItem>, id: int)
    requires UniqueIds(items)
    ensures Find(items, id).None? ==>
              && TotalItems(Without(items, id)) == TotalItems(items)
              && TotalPrice(Without(items, id)) == TotalPrice(items)
    ensures Find(items, id).Some? ==>
              && TotalItems(Without(items, id)) == TotalItems(items) - Find(items, id).value.quantity
              && TotalPrice(Without(items, id)) == TotalPrice(items) - LineTotal(Find(items, id).value)
  {
    match IndexOf(items, id)
    case None =>
      RemoveAbsent(items, id);
    case Some(k) =>
      RemovePresent(items, id);
      TotalsWithoutAt(items, k);
  }

  /** Dropping the entry at one position lowers the totals by that entry. */
  lemma TotalsWithoutAt(items: seq<CartItem>, k: nat)
    requires k < |items|
    ensures TotalItems(items[..k] + items[k + 1..]) == TotalItems(items) - items[k].quantity
    ensures TotalPrice(items[..k] + items[k + 1..]) == TotalPrice(items) - LineTotal(items[k])
  {
    var before, upTo, after := items[..k], items[..k + 1], items[k + 1..];
    assert upTo == before + [items[k]];
    assert items == upTo + after;
    assert [items[k]][1..] == [];
    TotalsOfConcat(upTo, after);
    TotalsOfConcat(before, [items[k]]);
    TotalsOfConcat(before, after);
  }

  /** With every quantity at least 1, there are at least as many items as
      entries; in particular both totals of an empty cart are 0. */
  lemma {:induction false} TotalItemsCoversEntries(items: seq<CartItem>)
    requires QuantitiesPositive(items)
    ensures TotalItems(items) >= |items|
    ensures items == [] ==> TotalItems(items) == 0 && TotalPrice(items) == 0
  {
    if items != [] {
      TotalItemsCoversEntries(items[1..]);
    }
  }

  // ---------------------------------------------------------------------
  // The store

  /** `useCartStore`: the `items` list, replaced by each action. */
  class CartStore {
    var items: seq<CartItem>

    ghost predicate Valid()
      reads this
    {
      UniqueIds(items) && QuantitiesPositive(items)
    }

    /** The store starts with an empty cart. */
    constructor ()
      ensures items == [] && Valid()
    {
      items := [];
    }

    method AddToCart(product: Product, quantity: int := 1)
      modifies this
      ensures items == Added(old(items), product, quantity)
      ensures old(Valid()) && quantity >= 1 ==> Valid()
      ensures old(Valid()) ==> TotalItems(items) == old(TotalItems(items)) + quantity
    {
      if old(Valid()) {
        AddToCartEntry(items, product, quantity);
        AddToCartTotals(items, product, quantity);
        AddToCartShape(items, product, quantity);
      }
      items := Added(items, product, quantity);
    }

    method RemoveFromCart(productId: int)
      modifies this
      ensures items == Without(old(items), productId)
      ensures old(Valid()) ==> Valid()
    {
      if Valid() {
        RemoveKeepsUnique(items, productId);
      }
      items := Without(items, productId);
    }

    method UpdateQuantity(productId: int, quantity: int)
      modifies this
      ensures items == WithQuantity(old(items), productId, quantity)
      ensures old(Valid()) ==> Valid()
    {
      if Valid() {
        UpdateQuantityShape(items, productId, quantity);
      }
      items := WithQuantity(items, productId, quantity);
    }

    method ClearCart()
      modifies this
      ensures items == [] && Valid()
    {
      items := [];
    }

    function GetTotalPrice(): int
      reads this
    {
      TotalPrice(items)
    }

    function GetTotalItems(): int
      reads this
    {
      TotalItems(items)
    }
  }
}

=== FILE: catalog_api.dfy ===
/** The catalog queries of `lib/api.ts`. `getProducts` turns a request into a
    list of query clauses (category, page window, order, attribute filters,
    price bounds), which the hosted store then evaluates; the store itself is
    a parameter here (`backend`), so only the clause construction and the
    fail-soft handling of the response are modelled. */
module Catalog {
  import opened Wrappers
  import opened Text
  import opened Products

  datatype PriceRange = PriceRange(min: Option<int>, max: Option<int>)

  /** A filter value as the pages pass it: `undefined`, one string, or the
      array a repeated query parameter produces. */
  datatype FilterValue = Missing | One(text: string) | Many(values: seq<string>)

  /** `ProductParams`; `filters` keeps the insertion order `Object.entries`
      walks. */
  datatype ProductParams = ProductParams(
    category: Category,
    page: Option<int>,
    limit: Option<int>,
    sort: Option<string>,
    priceRange: Option<PriceRange>,
    filters: Option<seq<(string, FilterValue)>>)

  /** One call on the query builder. `Contains(key, v)` is
      `.contains('attributes', { [key]: v })`. */
  datatype Clause =
    | Eq(column: string, value: string)
    | Range(from: int, to: int)
    | Order(column: string, ascending: bool)
    | Contains(key: string, member: Json)
    | Or(condition: string)
    | Gte(column: string, bound: int)
    | Lte(column: string, bound: int)

  const DefaultPage := 1
  const DefaultLimit := 12
  const CapsuleKey := "hasCapsule"
  /** `knownArrayKeys`: attributes stored as lists of strings. */
  const ArrayKeys := ["flavors"]

  function CategoryText(c: Category): string {
    match c
    case Gadget => "gadget"
    case Sticks => "sticks"
  }

  // ---------------------------------------------------------------------
  // Pagination window

  datatype Window = Window(from: int, to: int)

  /** `from = (page - 1) * limit`, `to = from + limit - 1` (both inclusive). */
  function PageWindow(page: int, limit: int): Window {
    var from := (page - 1) * limit;
    Window(from, from + limit - 1)
  }

  /** Every window spans exactly `limit` rows, the first page starts at row 0,
      and the next page starts right after this one ends. */
  lemma PageWindowSpan(page: int, limit: int)
    ensures PageWindow(page, limit).to - PageWindow(page, limit).from + 1 == limit
    ensures PageWindow(1, limit).from == 0
    ensures PageWindow(page + 1, limit).from == PageWindow(page, limit).to + 1
  {
    assert page * limit == (page - 1) * limit + limit;
  }

  /** With a positive limit, an earlier page's window ends before a later
      page's window starts, so no row is on two pages. */
  lemma {:induction false} PageWindowsDisjoint(p: int, q: int, limit: int)
    requires limit > 0 && p < q
    ensures PageWindow(p, limit).to < PageWindow(q, limit).from
    decreases q - p
  {
    PageWindowSpan(p, limit);
    if p + 1 < q {
      PageWindowsDisjoint(p + 1, q, limit);
      PageWindowSpan(p + 1, limit);
    }
  }

  // ---------------------------------------------------------------------
  // Sorting

  /** The `if`/`else if` chain choosing the order clause. */
  function SortClause(sort: Option<string>): (order: Clause)
    ensures order.Order?
    ensures sort.None? ==> order == Order("id", true)
  {
    if sort == Some("price_asc") then Order("price", true)
    else if sort == Some("price_desc") then Order("price", false)
    else if sort == Some("newest") then Order("created_at", false)
    else if sort == Some("title_asc") then Order("title", true)
    else if sort == Some("title_desc") then Order("title", false)
    else Order("id", true)
  }

  /** The closed set of sort keys, as a table. */
  const SortTable: map<string, Clause> := map[
    "price_asc" := Order("price", true),
    "price_desc" := Order("price", false),
    "newest" := Order("created_at", false),
    "title_asc" := Order("title", true),
    "title_desc" := Order("title", false)]

  /** The dispatch is exactly the table; every other value, and no value,
      falls back to ascending id. */
  lemma SortDispatch(sort: Option<string>)
    ensures SortClause(sort) == if sort.Some? && sort.value in SortTable then SortTable[sort.value] else Order("id", true)
    ensures SortClause(sort).Order?
  {
  }

  // ---------------------------------------------------------------------
  // Attribute filters

  /** `!value`: only `undefined` and the empty string are skipped; an array,
      even an empty one, is not. */
  predicate Falsy(value: FilterValue) {
    value.Missing? || value == One("")
  }

  /** `attributes->k.cs.["v"]` */
  function ArrayDisjunct(key: string, v: string): string {
    "attributes->" + key + ".cs.[\"" + v + "\"]"
  }

  /** `attributes->>k.eq.v` */
  function EqDisjunct(key: string, v: string): string {
    "attributes->>" + key + ".eq." + v
  }

  function Disjuncts(key: string, values: seq<string>): (ds: seq<string>)
    ensures |ds| == |values|
  {
    seq(|values|, i requires 0 <= i < |values| =>
      if key in ArrayKeys then ArrayDisjunct(key, values[i]) else EqDisjunct(key, values[i]))
  }

  /** The OR condition for several selected values: one disjunct per value,
      in order, joined by `,`. */
  function OrCondition(key: string, values: seq<string>): string {
    Join(Disjuncts(key, values), ",")
  }

  /** The disjuncts can be read back from the OR condition, one per value in
      order, when neither the key nor the values contain a comma. */
  lemma OrConditionDisjuncts(key: string, values: seq<string>)
    requires |values| >= 1
    requires ',' !in key
    requires forall i :: 0 <= i < |values| ==> ',' !in values[i]
    ensures Split(OrCondition(key, values), ',') == Disjuncts(key, values)
    ensures forall i :: 0 <= i < |values| ==>
              Disjuncts(key, values)[i] == if key == "flavors" then ArrayDisjunct(key, values[i]) else EqDisjunct(key, values[i])
  {
    var ds := Disjuncts(key, values);
    forall i | 0 <= i < |ds| ensures ',' !in ds[i] {
      assert ',' !in "attributes->" && ',' !in ".cs.[\"" && ',' !in "\"]";
      assert ',' !in "attributes->>" && ',' !in ".eq.";
    }
    SplitJoin(ds, ',');
  }

  /** The clauses one `filters` entry contributes. */
  function FilterClause(key: string, value: FilterValue): (r: seq<Clause>)
    ensures |r| <= 1
    ensures r == [] <==> Falsy(value)
  {
    if Falsy(value) then []
    else if key == CapsuleKey then [Contains(key, JBool(value == One("true")))]
    else match value
      case Many(values) => [Or(OrCondition(key, values))]
      case One(v) => if key in ArrayKeys then [Contains(key, JStrList([v]))] else [Contains(key, JStr(v))]
      case Missing => []
  }

  /** The clauses of all entries, in entry order. */
  function FilterClauses(entries: seq<(string, FilterValue)>): seq<Clause> {
    if entries == [] then []
    else
      var last := entries[|entries| - 1];
      FilterClauses(entries[..|entries| - 1]) + FilterClause(last.0, last.1)
  }

  function CountTruthy(entries: seq<(string, FilterValue)>): nat {
    if entries == [] then 0
    else CountTruthy(entries[..|entries| - 1]) + (if Falsy(entries[|entries| - 1].1) then 0 else 1)
  }

  /** Each non-skipped entry adds exactly one clause, and filters never add
      a price bound. */
  lemma {:induction false} FilterClausesCount(entries: seq<(string, FilterValue)>)
    ensures |FilterClauses(entries)| == CountTruthy(entries)
    ensures forall c :: c in FilterClauses(entries) ==> c.Contains? || c.Or?
  {
    if entries != [] {
      FilterClausesCount(entries[..|entries| - 1]);
    }
  }

  // ---------------------------------------------------------------------
  // Price bounds

  function PriceClauses(range: Option<PriceRange>): seq<Clause> {
    match range
    case None => []
    case Some(r) =>
      (if r.min.Some? then [Gte("price", r.min.value)] else [])
      + (if r.max.Some? then [Lte("price", r.max.value)] else [])
  }

  /** The reading of the price clauses on one product price. */
  predicate PriceAdmits(clauses: seq<Clause>, price: int) {
    forall i :: 0 <= i < |clauses| ==>
      && (clauses[i].Gte? && clauses[i].column == "price" ==> price >= clauses[i].bound)
      && (clauses[i].Lte? && clauses[i].column == "price" ==> price <= clauses[i].bound)
  }

  predicate InPriceRange(range: Option<PriceRange>, price: int) {
    match range
    case None => true
    case Some(r) => (r.min.None? || r.min.value <= price) && (r.max.None? || price <= r.max.value)
  }

  // ---------------------------------------------------------------------
  // The whole query

  /** The clause list `getProducts` builds, in call order. */
  function QueryClauses(params: ProductParams): (clauses: seq<Clause>)
    ensures |clauses| >= 3 && clauses[0] == Eq("category", CategoryText(params.category))
    ensures clauses[1] == Range((params.page.GetOr(1) - 1) * params.limit.GetOr(12),
                                (params.page.GetOr(1) - 1) * params.limit.GetOr(12) + params.limit.GetOr(12) - 1)
    ensures clauses[2] == SortClause(params.sort)
    ensures |clauses| == 3 + CountTruthy(params.filters.GetOr([])) + |PriceClauses(params.priceRange)|
  {
    FilterClausesCount(params.filters.GetOr([]));
    QueryHead(params) + FilterClauses(params.filters.GetOr([])) + PriceClauses(params.priceRange)
  }

  /** The category, the page window and the order, which every query has. */
  function QueryHead(params: ProductParams): seq<Clause> {
    var w := PageWindow(params.page.GetOr(DefaultPage), params.limit.GetOr(DefaultLimit));
    [Eq("category", CategoryText(params.category)), Range(w.from, w.to), SortClause(params.sort)]
  }

  lemma PriceAdmitsConcat(a: seq<Clause>, b: seq<Clause>, price: int)
    ensures PriceAdmits(a + b, price) <==> PriceAdmits(a, price) && PriceAdmits(b, price)
  {
    var ab := a + b;
    assert forall i :: 0 <= i < |a| ==> ab[i] == a[i];
    assert forall i :: 0 <= i < |b| ==> ab[|a| + i] == b[i];
    if PriceAdmits(a, price) && PriceAdmits(b, price) {
      forall i | 0 <= i < |ab|
        ensures ab[i].Gte? && ab[i].column == "price" ==> price >= ab[i].bound
        ensures ab[i].Lte? && ab[i].column == "price" ==> price <= ab[i].bound
      {
        if i >= |a| {
          assert ab[i] == b[i - |a|];
        }
      }
    }
  }

  lemma PriceClausesMeaning(range: Option<PriceRange>, price: int)
    ensures PriceAdmits(PriceClauses(range), price) <==> InPriceRange(range, price)
  {
    var ps := PriceClauses(range);
    if range.Some? && range.value.min.Some? {
      assert ps[0] == Gte("price", range.value.min.value);
    }
    if range.Some? && range.value.max.Some? {
      assert ps[|ps| - 1] == Lte("price", range.value.max.value);
    }
  }

  /** Read as a condition on price, the whole query admits exactly the prices
      within the requested bounds, each bound inclusive and open when absent. */
  lemma PriceMeaning(params: ProductParams, price: int)
    ensures PriceAdmits(QueryClauses(params), price) <==> InPriceRange(params.priceRange, price)
  {
    var w := PageWindow(params.page.GetOr(DefaultPage), params.limit.GetOr(DefaultLimit));
    var head := [Eq("category", CategoryText(params.category)), Range(w.from, w.to), SortClause(params.sort)];
    var fs := FilterClauses(params.filters.GetOr([]));
    var ps := PriceClauses(params.priceRange);
    FilterClausesCount(params.filters.GetOr([]));
    assert PriceAdmits(head, price);
    assert PriceAdmits(fs, price) by {
      forall i | 0 <= i < |fs| ensures fs[i].Contains? || fs[i].Or? {
        assert fs[i] in fs;
      }
    }
    PriceAdmitsConcat(head, fs, price);
    PriceAdmitsConcat(head + fs, ps, price);
    PriceClausesMeaning(params.priceRange, price);
  }

  /** The callback of the `forEach`: the clause one entry adds, if any. */
  method EntryClauses(key: string, value: FilterValue) returns (added: seq<Clause>)
    ensures added == FilterClause(key, value)
  {
    added := [];
    if value.Missing? || value == One("") {
      // `if (!value) return;`
    } else if key == CapsuleKey {
      added := [Contains(key, JBool(value == One("true")))];
    } else if value.Many? {
      var condition := OrCondition(key, value.values);
      added := [Or(condition)];
    } else if key in ArrayKeys {
      added := [Contains(key, JStrList([value.text]))];
    } else {
      added := [Contains(key, JStr(value.text))];
    }
  }

  /** One more entry of the `forEach` appends that entry's clauses. */
  lemma FilterClausesStep(query: seq<Clause>, entries: seq<(string, FilterValue)>, i: nat)
    requires i < |entries|
    ensures query + FilterClauses(entries[..i + 1]) == query + FilterClauses(entries[..i]) + FilterClause(entries[i].0, entries[i].1)
  {
    var prefix := entries[..i + 1];
    assert prefix[..i] == entries[..i] && prefix[i] == entries[i];
    assert FilterClauses(prefix) == FilterClauses(entries[..i]) + FilterClause(entries[i].0, entries[i].1);
  }

  /** The `forEach` over `filters`: each entry's clause is appended to
      `query` in entry order. */
  method AddFilterClauses(query: seq<Clause>, entries: seq<(string, FilterValue)>)
    returns (extended: seq<Clause>)
    ensures extended == query + FilterClauses(entries)
  {
    extended := query;
    var i := 0;
    while i < |entries|
      invariant 0 <= i <= |entries|
      invariant extended == query + FilterClauses(entries[..i])
    {
      var added := EntryClauses(entries[i].0, entries[i].1);
      FilterClausesStep(query, entries, i);
      extended := extended + added;
      i := i + 1;
    }
    assert entries[..|entries|] == entries;
  }

  /** The "Sorting" step: one order clause from the `if`/`else if` chain. */
  method AddOrder(query: seq<Clause>, sort: Option<string>) returns (extended: seq<Clause>)
    ensures extended == query + [SortClause(sort)]
  {
    if sort == Some("price_asc") {
      extended := query + [Order("price", true)];
    } else if sort == Some("price_desc") {
      extended := query + [Order("price", false)];
    } else if sort == Some("newest") {
      extended := query + [Order("created_at", false)];
    } else if sort == Some("title_asc") {
      extended := query + [Order("title", true)];
    } else if sort == Some("title_desc") {
      extended := query + [Order("title", false)];
    } else {
      extended := query + [Order("id", true)];
    }
  }

  /** The "Price Range" step: each present bound adds one inclusive clause. */
  method AddPriceBounds(query: seq<Clause>, range: Option<PriceRange>) returns (extended: seq<Clause>)
    ensures extended == query + PriceClauses(range)
  {
    extended := query;
    if range.Some? {
      if range.value.min.Some? {
        extended := extended + [Gte("price", range.value.min.value)];
      }
      if range.value.max.Some? {
        extended := extended + [Lte("price", range.value.max.value)];
      }
    }
  }

  /** `getProducts`' clause construction: `query` is extended step by step,
      starting from the category equality and the page window. */
  method BuildQuery(params: ProductParams) returns (query: seq<Clause>)
    ensures query == QueryClauses(params)
    ensures |query| >= 3 && query[0] == Eq("category", CategoryText(params.category))
    ensures query[1] == Range((params.page.GetOr(1) - 1) * params.limit.GetOr(12),
                              (params.page.GetOr(1) - 1) * params.limit.GetOr(12) + params.limit.GetOr(12) - 1)
  {
    var page := if params.page.Some? then params.page.value else DefaultPage;
    var limit := if params.limit.Some? then params.limit.value else DefaultLimit;
    query := [Eq("category", CategoryText(params.category))];

    var from := (page - 1) * limit;
    var to := from + limit - 1;
    query := query + [Range(from, to)];

    query := AddOrder(query, params.sort);
    assert query == QueryHead(params);
    if params.filters.Some? {
      query := AddFilterClauses(query, params.filters.value);
    } else {
      assert query == QueryHead(params) + FilterClauses([]);
    }
    query := AddPriceBounds(query, params.priceRange);
  }

  // ---------------------------------------------------------------------
  // Responses

  /** What the store answered for a product listing: an error, or the rows
      of the window with the exact count (possibly `null`). */
  datatype QueryResponse = QueryFailed | QueryRows(data: seq<ProductRow>, count: Option<nat>)

  /** `PaginatedResult` */
  datatype PaginatedResult = PaginatedResult(data: seq<ProductRow>, count: nat)

  /** `getProducts(params)` with the store as `backend`: a failed query gives
      an empty page with count 0, a missing count reads as 0. */
  method GetProducts(params: ProductParams, backend: seq<Clause> -> QueryResponse)
    returns (result: PaginatedResult)
    ensures backend(QueryClauses(params)).QueryFailed? ==> result == PaginatedResult([], 0)
    ensures backend(QueryClauses(params)).QueryRows? ==>
              && result.data == backend(QueryClauses(params)).data
              && result.count == backend(QueryClauses(params)).count.GetOr(0)
  {
    var query := BuildQuery(params);
    var response := backend(query);
    if response.QueryFailed? {
      return PaginatedResult([], 0);
    }
    result := PaginatedResult(response.data, if response.count.Some? then response.count.value else 0);
  }

  /** A row of `select('slug')`. */
  datatype SlugRow = SlugRow(slug: string)

  datatype SlugResponse = SlugsFailed | SlugRows(data: Option<seq<SlugRow>>)

  /** `getAllSlugs(category)`: the slugs in row order, or none on failure. */
  method GetAllSlugs(category: Category, backend: seq<Clause> -> SlugResponse)
    returns (slugs: seq<string>)
    ensures var response := backend([Eq("category", CategoryText(category))]);
            && (response.SlugsFailed? ==> slugs == [])
            && (response.SlugRows? && response.data.None? ==> slugs == [])
            && (response.SlugRows? && response.data.Some? ==>
                  |slugs| == |response.data.value|
                  && forall i :: 0 <= i < |slugs| ==> slugs[i] == response.data.value[i].slug)
  {
    var response := backend([Eq("category", CategoryText(category))]);
    if response.SlugsFailed? {
      return [];
    }
    if response.data.None? {
      return [];
    }
    var rows := response.data.value;
    slugs := seq(|rows|, i requires 0 <= i < |rows| => rows[i].slug);
  }

  /** What `.single()` answered: an error (no row, several rows, or a failed
      request) or the one row. */
  datatype SingleResponse = SingleFailed | SingleRow(row: ProductRow)

  /** `getProductBySlug(slug)`: the row, or `null` on any error. */
  method GetProductBySlug(slug: string, backend: seq<Clause> -> SingleResponse)
    returns (product: Option<ProductRow>)
    ensures var response := backend([Eq("slug", slug)]);
            && (response.SingleFailed? ==> product == None)
            && (response.SingleRow? ==> product == Some(response.row))
  {
    var response := backend([Eq("slug", slug)]);
    if response.SingleFailed? {
      return None;
    }
    product := Some(response.row);
  }
}

=== FILE: checkout.dfy ===
/** The `placeOrder` server action (`app/actions/checkout.ts`): validate the
    form, refuse an empty cart, insert the order header with the total computed
    from the submitted snapshot prices, insert one row per cart line, send the notification e-mails best
    effort, and report `{success, error}`. */
module Checkout {
  import opened Wrappers
  import opened Cart
  import opened ActionSupport

  /** The checkout form. */
  datatype CheckoutData = CheckoutData(fullName: string, phone: string, email: string, message: Option<string>)

  /** `formSchema`: name of at least 2 characters, phone of at least 10, an
      e-mail the schema's e-mail check accepts, any (or no) message. The
      e-mail check is the library's, passed in as `isEmail`. */
  predicate FormValid(data: CheckoutData, isEmail: string -> bool)
    ensures !FormValid(data, isEmail) <==> |data.fullName| < 2 || |data.phone| < 10 || !isEmail(data.email)
  {
    |data.fullName| >= 2 && |data.phone| >= 10 && isEmail(data.email)
  }

  /** The message is optional: whatever it holds, or its absence, never
      changes whether the form passes. */
  lemma FormIgnoresMessage(data: CheckoutData, message: Option<string>, isEmail: string -> bool)
    ensures FormValid(data.(message := message), isEmail) <==> FormValid(data, isEmail)
  {
  }

  const EmptyCartError := "Корзина пуста"
  const OrderCreateError := "Ошибка при создании заказа"
  const OrderItemsError := "Ошибка при сохранении товаров заказа"
  const OrderSender := "IQOS Orders <onboarding@resend.dev>"
  const ConfirmationSender := "IQOS <onboarding@resend.dev>"
  const PendingStatus := "pending"

  /** A row inserted into `orders`. */
  datatype OrderHeader = OrderHeader(
    userName: string, userEmail: string, userPhone: string, userMessage: Option<string>,
    totalAmount: int, status: string)

  /** A row inserted into `order_items`. */
  datatype OrderItemRow = OrderItemRow(orderId: int, productId: int, quantity: int, priceAtTime: int)

  /** The outward actions of one call, in the order they are issued. */
  datatype OrderEffect =
    | InsertOrder(header: OrderHeader)
    | InsertOrderItems(rows: seq<OrderItemRow>)
    | SendEmail(from: string, to: string)

  /** The header `placeOrder` inserts: the validated contact fields, the
      total of the submitted snapshot prices and the pending status. */
  function OrderHeaderFor(data: CheckoutData, items: seq<CartItem>): OrderHeader
  {
    OrderHeader(data.fullName, data.email, data.phone, data.message, TotalPrice(items), PendingStatus)
  }

  /** `orderItems`: one row per cart line, in cart order. */
  function OrderItems(orderId: int, items: seq<CartItem>): (rows: seq<OrderItemRow>)
    ensures |rows| == |items|
    ensures forall i :: 0 <= i < |items| ==>
              rows[i] == OrderItemRow(orderId, items[i].product.id, items[i].quantity, items[i].product.price)
  {
    seq(|items|, i requires 0 <= i < |items| =>
      OrderItemRow(orderId, items[i].product.id, items[i].quantity, items[i].product.price))
  }

  function RowsTotal(rows: seq<OrderItemRow>): int
  {
    if rows == [] then 0 else rows[0].priceAtTime * rows[0].quantity + RowsTotal(rows[1..])
  }

  /** The header's `total_amount` equals the sum of price × quantity over the
      item rows written with it. */
  lemma {:induction false} OrderRowsMatchTotal(data: CheckoutData, orderId: int, items: seq<CartItem>)
    ensures RowsTotal(OrderItems(orderId, items)) == OrderHeaderFor(data, items).totalAmount
  {
    if items != [] {
      OrderRowsMatchTotal(data, orderId, items[1..]);
      assert OrderItems(orderId, items)[1..] == OrderItems(orderId, items[1..]);
    }
  }

  /** The e-mails attempted once both inserts succeeded: none unless e-mail is
      configured; otherwise the internal notification, then the customer
      confirmation unless the first send threw. */
  function EmailAttempts(env: EmailEnv, data: CheckoutData, internalSend: SendOutcome): seq<OrderEffect>
  {
    if !EmailConfigured(env) then []
    else [SendEmail(OrderSender, env.internalEmail.value)]
         + (if internalSend == SendThrew then [] else [SendEmail(ConfirmationSender, data.email)])
  }

  /** `placeOrder(data, items)`. The outcomes of the two inserts and of the
      first e-mail send are parameters; `effects` lists what was issued. */
  method PlaceOrder(data: CheckoutData, items: seq<CartItem>, isEmail: string -> bool, env: EmailEnv,
                    orderInsert: DbOutcome, itemsInsert: DbOutcome, internalSend: SendOutcome)
    returns (result: ActionResult, effects: seq<OrderEffect>)
    // the form is checked first, then the cart, both before anything is written
    ensures !FormValid(data, isEmail) ==> result == Failure(InvalidFormError) && effects == []
    ensures FormValid(data, isEmail) && items == [] ==> result == Failure(EmptyCartError) && effects == []
    // otherwise the header is inserted first, with the total of the submitted snapshot prices
    ensures FormValid(data, isEmail) && items != [] ==>
              |effects| >= 1 && effects[0] == InsertOrder(OrderHeaderFor(data, items))
    ensures FormValid(data, isEmail) && items != [] && !orderInsert.DbOk? ==>
              |effects| == 1 &&
              result == Failure(if orderInsert.DbError? then OrderCreateError else UnexpectedError)
    // then the item rows for the created order
    ensures FormValid(data, isEmail) && items != [] && orderInsert.DbOk? ==>
              |effects| >= 2 && effects[1] == InsertOrderItems(OrderItems(orderInsert.id, items))
    // a failed item insert leaves the header in place (nothing after it)
    ensures FormValid(data, isEmail) && items != [] && orderInsert.DbOk? && !itemsInsert.DbOk? ==>
              |effects| == 2 &&
              result == Failure(if itemsInsert.DbError? then OrderItemsError else UnexpectedError)
    ensures FormValid(data, isEmail) && items != [] && orderInsert.DbOk? && itemsInsert.DbOk? ==>
              effects[2..] == EmailAttempts(env, data, internalSend)
    // success depends on validation and the two inserts only, never on e-mail
    ensures result.success <==> FormValid(data, isEmail) && items != [] && orderInsert.DbOk? && itemsInsert.DbOk?
    ensures result.success ==> result == Success
    ensures !result.success ==> result.error.Some?
  {
    effects := [];
    if !FormValid(data, isEmail) {
      return Failure(InvalidFormError), effects;
    }
    if |items| == 0 {
      return Failure(EmptyCartError), effects;
    }
    var totalAmount := TotalPrice(items);
    var header := OrderHeader(data.fullName, data.email, data.phone, data.message, totalAmount, PendingStatus);
    effects := effects + [InsertOrder(header)];
    if orderInsert.DbThrew? {
      return Failure(UnexpectedError), effects;
    }
    if orderInsert.DbError? {
      return Failure(OrderCreateError), effects;
    }
    var orderId := orderInsert.id;
    var rows := OrderItems(orderId, items);
    effects := effects + [InsertOrderItems(rows)];
    if itemsInsert.DbThrew? {
      return Failure(UnexpectedError), effects;
    }
    if itemsInsert.DbError? {
      return Failure(OrderItemsError), effects;
    }
    if EmailConfigured(env) {
      effects := effects + [SendEmail(OrderSender, env.internalEmail.value)];
      if internalSend != SendThrew {
        effects := effects + [SendEmail(ConfirmationSender, data.email)];
      }
    }
    result := Success;
  }
}

=== FILE: contact.dfy ===
/** The `submitContact` server action (`app/actions/contact.ts`): validate,
    insert the message, notify by e-mail best effort, report the result. */
module Contact {
  import opened Wrappers
  import opened ActionSupport
  import Checkout

  /** The contact form. */
  datatype ContactData = ContactData(name: string, phone: string, email: string, message: string)

  /** `contactSchema`: name of at least 2 characters, phone of at least 10,
      an e-mail the schema's e-mail check accepts, a message of at least 10. */
  predicate ContactValid(data: ContactData, isEmail: string -> bool)
    // the contact schema is the checkout schema with the message made compulsory
    ensures ContactValid(data, isEmail) <==>
              && Checkout.FormValid(Checkout.CheckoutData(data.name, data.phone, data.email, Some(data.message)), isEmail)
              && |data.message| >= 10
  {
    |data.name| >= 2 && |data.phone| >= 10 && isEmail(data.email) && |data.message| >= 10
  }

  const ContactSendError := "Ошибка при отправке сообщения"
  const ContactSender := "IQOS Contact <onboarding@resend.dev>"
  const NewStatus := "new"

  /** A row inserted into `contact_messages`. */
  datatype ContactRow = ContactRow(name: string, email: string, phone: string, message: string, status: string)

  datatype ContactEffect =
    | InsertContactMessage(row: ContactRow)
    | SendContactEmail(from: string, to: string)

  /** `submitContact(data)`; the insert outcome is a parameter and `effects`
      lists what was issued. The e-mail's own outcome cannot change anything,
      so it is not a parameter. */
  method SubmitContact(data: ContactData, isEmail: string -> bool, env: EmailEnv, insert: DbOutcome)
    returns (result: ActionResult, effects: seq<ContactEffect>)
    ensures !ContactValid(data, isEmail) ==> result == Failure(InvalidFormError) && effects == []
    ensures ContactValid(data, isEmail) ==>
              |effects| >= 1 &&
              effects[0] == InsertContactMessage(ContactRow(data.name, data.email, data.phone, data.message, NewStatus))
    ensures ContactValid(data, isEmail) && !insert.DbOk? ==>
              |effects| == 1 &&
              result == Failure(if insert.DbError? then ContactSendError else UnexpectedError)
    ensures ContactValid(data, isEmail) && insert.DbOk? ==>
              effects[1..] == (if EmailConfigured(env) then [SendContactEmail(ContactSender, env.internalEmail.value)] else [])
    ensures result.success <==> ContactValid(data, isEmail) && insert.DbOk?
    ensures result.success ==> result == Success
  {
    effects := [];
    if !ContactValid(data, isEmail) {
      return Failure(InvalidFormError), effects;
    }
    var row := ContactRow(data.name, data.email, data.phone, data.message, NewStatus);
    effects := effects + [InsertContactMessage(row)];
    if insert.DbThrew? {
      return Failure(UnexpectedError), effects;
    }
    if insert.DbError? {
      return Failure(ContactSendError), effects;
    }
    if EmailConfigured(env) {
      effects := effects + [SendContactEmail(ContactSender, env.internalEmail.value)];
    }
    result := Success;
  }
}

=== FILE: int_math.dfy ===
/** `Math.max`, `Math.min` and the ceiling division behind `Math.ceil(a / b)`
    on the integers the storefront works with. */
module IntMath {

  function Max(a: int, b: int): (r: int)
    ensures r >= a && r >= b && (r == a || r == b)
  {
    if a >= b then a else b
  }

  function Min(a: int, b: int): (r: int)
    ensures r <= a && r <= b && (r == a || r == b)
  {
    if a <= b then a else b
  }

  /** `Math.ceil(n / d)` for a positive divisor: the least count of
      `d`-sized groups that holds `n` items. */
  function CeilDiv(n: nat, d: nat): (q: nat)
    requires d > 0
    ensures q * d >= n
    ensures q > 0 ==> (q - 1) * d < n
  {
    var q := (n + d - 1) / d;
    assert q * d + (n + d - 1) % d == n + d - 1;
    q
  }

  /** Multiplying by a non-negative factor keeps the order. */
  lemma MulMonotone(a: int, b: int, c: nat)
    requires a <= b
    ensures a * c <= b * c
  {
    assert b * c == a * c + (b - a) * c;
  }
}

=== FILE: pagination.dfy ===
/** The URL-driven page navigator (`components/Pagination.tsx`): the current
    page comes from the `page` query parameter, the page count from the total
    item count, and every link keeps the other parameters and sets `page`. */
module Pagination {
  import opened Wrappers
  import opened Text
  import opened IntMath
  import opened UrlParams

  const DefaultItemsPerPage := 12

  /** `Number(searchParams.get('page')) || 1`: the parsed page, or 1 when the
      parameter is missing, zero or not a number. */
  function CurrentPage(params: map<string, string>): (page: int)
    ensures page >= 1
    ensures "page" !in params ==> page == 1
    ensures "page" in params && ParseDecimal(params["page"]).Some? && ParseDecimal(params["page"]).value != 0 ==>
              page == ParseDecimal(params["page"]).value
    ensures "page" in params && (ParseDecimal(params["page"]).None? || ParseDecimal(params["page"]).value == 0) ==>
              page == 1
  {
    var parsed := if "page" in params then ParseDecimal(params["page"]) else None;
    if parsed.Some? && parsed.value != 0 then parsed.value else 1
  }

  /** `Math.ceil(totalItems / itemsPerPage)` */
  function TotalPages(totalItems: nat, itemsPerPage: nat): (pages: nat)
    requires itemsPerPage > 0
    ensures pages * itemsPerPage >= totalItems
    ensures pages > 0 ==> (pages - 1) * itemsPerPage < totalItems
  {
    CeilDiv(totalItems, itemsPerPage)
  }

  /** The navigator is hidden exactly when everything fits on one page. */
  lemma HiddenWhenOnePage(totalItems: nat, itemsPerPage: nat)
    requires itemsPerPage > 0
    ensures TotalPages(totalItems, itemsPerPage) <= 1 <==> totalItems <= itemsPerPage
    ensures TotalPages(totalItems, itemsPerPage) == 0 <==> totalItems == 0
  {
    var t := TotalPages(totalItems, itemsPerPage);
    if t >= 2 {
      MulMonotone(1, t - 1, itemsPerPage);
    }
  }

  /** `Math.max(1, currentPage - 1)` */
  function PrevTarget(current: int): int {
    Max(1, current - 1)
  }

  /** `Math.min(totalPages, currentPage + 1)` */
  function NextTarget(current: int, totalPages: int): int {
    Min(totalPages, current + 1)
  }

  /** The previous target never drops below page 1 and the next target never
      passes the last page; from a page within range both stay within range. */
  lemma TargetsInRange(current: int, totalPages: int)
    ensures PrevTarget(current) >= 1
    ensures NextTarget(current, totalPages) <= totalPages
    ensures 1 <= current <= totalPages ==>
              && PrevTarget(current) <= totalPages
              && 1 <= NextTarget(current, totalPages)
    ensures current > 1 ==> PrevTarget(current) == current - 1
    ensures current < totalPages ==> NextTarget(current, totalPages) == current + 1
  {
  }

  /** `Array.from({ length: totalPages }, (_, i) => i + 1)` */
  function PageNumbers(totalPages: nat): (pages: seq<int>)
    ensures |pages| == totalPages
    ensures forall i :: 0 <= i < totalPages ==> pages[i] == i + 1
  {
    seq(totalPages, i requires 0 <= i < totalPages => i + 1)
  }

  /** Page links are 1 … totalPages, each once, ascending. */
  lemma PageNumbersAscending(totalPages: nat)
    ensures forall i, j :: 0 <= i < j < totalPages ==> PageNumbers(totalPages)[i] < PageNumbers(totalPages)[j]
    ensures forall p :: 1 <= p <= totalPages ==> p in PageNumbers(totalPages)
    ensures forall p :: p in PageNumbers(totalPages) ==> 1 <= p <= totalPages
  {
    var ps := PageNumbers(totalPages);
    forall p | 1 <= p <= totalPages ensures p in ps {
      assert ps[p - 1] == p;
    }
  }

  /** `createPageURL(page)`: a copy of the current parameters with `page` set. */
  function PageUrl(location: Location, page: nat): (target: Location)
    ensures target.pathname == location.pathname
    ensures "page" in target.params && ParseDecimal(target.params["page"]) == Some(page)
    ensures target.params.Keys == location.params.Keys + {"page"}
    ensures forall k :: k in location.params && k != "page" ==> target.params[k] == location.params[k]
  {
    ParseDecimalText(page);
    Location(location.pathname, location.params["page" := DecimalText(page)])
  }

  /** A page link keeps the pathname and every other parameter, and the page
      it leads to reads back as the page it was made for. */
  lemma PageUrlRoundTrip(location: Location, page: nat)
    requires page >= 1
    ensures PageUrl(location, page).pathname == location.pathname
    ensures CurrentPage(PageUrl(location, page).params) == page
    ensures forall k :: k != "page" ==>
              (k in PageUrl(location, page).params <==> k in location.params)
              && (k in location.params ==> PageUrl(location, page).params[k] == location.params[k])
  {
    ParseDecimalText(page);
  }

  datatype PageLink = PageLink(page: int, href: Location, active: bool)

  /** One link per page, in order, the current one marked active. */
  function PageLinks(location: Location, total: nat, current: int): (links: seq<PageLink>)
    ensures |links| == total
    ensures forall i :: 0 <= i < total ==> links[i] == PageLink(i + 1, PageUrl(location, i + 1), i + 1 == current)
  {
    var pages := PageNumbers(total);
    seq(total, i requires 0 <= i < total => PageLink(pages[i], PageUrl(location, pages[i]), pages[i] == current))
  }

  /** Each page link leads to its own page, keeping the other parameters, and
      exactly the link of the current page is active. */
  lemma PageLinksLeadToTheirPage(location: Location, total: nat, current: int)
    ensures forall i :: 0 <= i < total ==>
              && PageLinks(location, total, current)[i].page == i + 1
              && CurrentPage(PageLinks(location, total, current)[i].href.params) == i + 1
              && (PageLinks(location, total, current)[i].active <==> i + 1 == current)
  {
    forall i | 0 <= i < total
      ensures CurrentPage(PageLinks(location, total, current)[i].href.params) == i + 1
    {
      PageUrlRoundTrip(location, i + 1);
    }
  }

  /** What the navigator renders: the arrows with their targets and disabled
      state, and one link per page. */
  datatype NavigatorView = NavigatorView(
    prev: Location, prevDisabled: bool,
    links: seq<PageLink>,
    next: Location, nextDisabled: bool)

  /** The `Pagination` component: nothing when there is at most one page. */
  function Navigator(location: Location, totalItems: nat, itemsPerPage: nat := DefaultItemsPerPage): (view: Option<NavigatorView>)
    requires itemsPerPage > 0
    ensures view.None? <==> TotalPages(totalItems, itemsPerPage) <= 1
    ensures view.Some? ==>
              && (view.value.prevDisabled <==> CurrentPage(location.params) == 1)
              && (view.value.nextDisabled <==> CurrentPage(location.params) == TotalPages(totalItems, itemsPerPage))
    ensures view.Some? ==>
              && view.value.links == PageLinks(location, TotalPages(totalItems, itemsPerPage), CurrentPage(location.params))
              && view.value.prev == PageUrl(location, PrevTarget(CurrentPage(location.params)))
              && view.value.next == PageUrl(location, NextTarget(CurrentPage(location.params), TotalPages(totalItems, itemsPerPage)))
  {
    var current := CurrentPage(location.params);
    var total := TotalPages(totalItems, itemsPerPage);
    if total <= 1 then None
    else
      Some(NavigatorView(
        PageUrl(location, PrevTarget(current)), current == 1,
        PageLinks(location, total, current),
        PageUrl(location, NextTarget(current, total)), current == total))
  }

  /** The arrows of the rendered navigator lead to pages within
      1 … totalPages whenever the current page is not past the end; the
      previous arrow never leads below page 1 and the next arrow never past
      the last page, whatever the `page` parameter says. */
  lemma NavigatorArrowsInRange(location: Location, totalItems: nat, itemsPerPage: nat)
    requires itemsPerPage > 0
    requires Navigator(location, totalItems, itemsPerPage).Some?
    ensures var view := Navigator(location, totalItems, itemsPerPage).value;
            var total := TotalPages(totalItems, itemsPerPage);
            && 1 <= CurrentPage(view.prev.params)
            && CurrentPage(view.next.params) <= total
            && (CurrentPage(location.params) <= total ==>
                  CurrentPage(view.prev.params) <= total && 1 <= CurrentPage(view.next.params))
  {
    var total := TotalPages(totalItems, itemsPerPage);
    var current := CurrentPage(location.params);
    TargetsInRange(current, total);
    PageUrlRoundTrip(location, PrevTarget(current));
    PageUrlRoundTrip(location, NextTarget(current, total));
  }
}

=== FILE: product.dfy ===
/** The catalog's data model: the database row of a product, the two source
    record shapes (IQOS devices and TEREA sticks) and the flat `Product` the
    cart stores, with the conversion `toProduct` between them. */
module Products {
  import opened Wrappers

  /** `'gadget' | 'sticks'` */
  datatype Category = Gadget | Sticks

  /** The JSON values the catalog reads out of a product's `attributes` and
      writes into containment filters. */
  datatype Json =
    | JNull
    | JBool(flag: bool)
    | JNum(num: int)
    | JStr(text: string)
    | JStrList(texts: seq<string>)

  /** The `badges` JSON of a row; an absent flag reads as false. */
  datatype Badges = Badges(isNew: bool, isHit: bool, isExclusive: bool)

  /** A row of the `products` table. */
  datatype ProductRow = ProductRow(
    id: int,
    slug: string,
    title: string,
    description: Option<string>,
    image: string,
    price: int,
    category: Category,
    inStock: bool,
    badges: Badges,
    attributes: map<string, Json>,
    brand: Option<string>)

  /** The product snapshot the cart keeps; `None` stands for an absent
      optional field. */
  datatype Product = Product(
    id: int,
    slug: string,
    title: string,
    image: string,
    price: int,
    category: Category,
    brand: Option<string>,
    line: Option<string>,
    color: Option<string>,
    quantity: Option<int>)

  /** `TIqos | TTerea`: the two catalog record shapes. */
  datatype CatalogItem =
    | Iqos(id: int, slug: string, title: string, description: string, image: string,
           line: string, color: Option<string>, price: int, salePrice: Option<int>,
           badges: Badges, inStock: bool)
    | Terea(id: int, slug: string, title: string, description: string,
            imageBlock: string, imagePack: string, brand: string, origin: string,
            flavors: seq<string>, strength: string, hasCapsule: bool,
            priceBlock: int, pricePack: int, badges: Badges, inStock: bool)

  /** `toProduct`: devices keep their image, price, line and colour; sticks
      take the block image and block price and keep their brand. */
  function ToProduct(item: CatalogItem): (p: Product)
    ensures p.id == item.id && p.slug == item.slug && p.title == item.title
    ensures p.quantity == None
    ensures p.category == Gadget <==> item.Iqos?
    ensures item.Iqos? ==> p.image == item.image && p.price == item.price
                           && p.line == Some(item.line) && p.color == item.color
    ensures item.Terea? ==> p.image == item.imageBlock && p.price == item.priceBlock
                            && p.brand == Some(item.brand)
  {
    match item
    case Iqos(id, slug, title, _, image, line, color, price, _, _, _) =>
      Product(id, slug, title, image, price, Gadget, None, Some(line), color, None)
    case Terea(id, slug, title, _, imageBlock, _, brand, _, _, _, _, priceBlock, _, _, _) =>
      Product(id, slug, title, imageBlock, priceBlock, Sticks, Some(brand), None, None, None)
  }

  /** A product carries only the optional fields of its own category: devices
      have no brand, sticks have no line or colour, and no product carries a
      cart quantity. */
  predicate CategoryShaped(p: Product) {
    && p.quantity == None
    && (p.category == Gadget ==> p.brand == None)
    && (p.category == Sticks ==> p.line == None && p.color == None)
  }

  lemma ToProductIsCategoryShaped(item: CatalogItem)
    ensures CategoryShaped(ToProduct(item))
    ensures ToProduct(item).category == Sticks ==> ToProduct(item).brand.Some?
  {
  }
}

=== FILE: product_card.dfy ===
/** The catalog tile (`components/ProductCard.tsx`): the cart snapshot it hands
    to the add-to-cart control, the link to the detail page, the badges and
    the attribute captions it derives from a product row. */
module Card {
  import opened Wrappers
  import opened Text
  import opened Products
  import opened Cart
  import CartButton

  /** A JSON attribute read as JavaScript truthiness; an absent key reads as
      `undefined`, which is falsy. */
  predicate Truthy(value: Option<Json>) {
    match value
    case None => false
    case Some(JNull) => false
    case Some(JBool(flag)) => flag
    case Some(JNum(num)) => num != 0
    case Some(JStr(text)) => text != ""
    case Some(JStrList(_)) => true
  }

  function Attribute(row: ProductRow, key: string): Option<Json> {
    if key in row.attributes then Some(row.attributes[key]) else None
  }

  /** A text attribute; any other JSON kind is not represented in the
      snapshot. */
  function TextAttribute(row: ProductRow, key: string): (r: Option<string>)
    ensures r.Some? <==> key in row.attributes && row.attributes[key].JStr?
    ensures r.Some? ==> row.attributes[key] == JStr(r.value)
  {
    match Attribute(row, key)
    case Some(JStr(text)) => Some(text)
    case _ => None
  }

  /** `mapToStoreProduct`: the cart snapshot of a row. */
  function MapToStoreProduct(row: ProductRow): (p: Product)
    ensures p.id == row.id && p.slug == row.slug && p.title == row.title
    ensures p.image == row.image && p.price == row.price && p.category == row.category
    ensures p.brand.Some? <==> row.brand.Some? && row.brand.value != ""
    ensures p.brand.Some? ==> p.brand == row.brand
    ensures p.line == TextAttribute(row, "line") && p.color == TextAttribute(row, "color")
    ensures p.quantity == None
  {
    var brand := if row.brand.Some? && row.brand.value != "" then row.brand else None;
    Product(row.id, row.slug, row.title, row.image, row.price, row.category,
            brand, TextAttribute(row, "line"), TextAttribute(row, "color"), None)
  }

  /** Adding a tile's product to a well-formed cart that lacks it creates one
      entry keyed by the row's id and priced at the row's price, so the cart
      total rises by exactly that price. */
  lemma CardAddPricesAtRow(items: seq<CartItem>, row: ProductRow)
    requires UniqueIds(items) && Find(items, row.id).None?
    ensures Find(Added(items, MapToStoreProduct(row), 1), row.id) == Some(CartItem(MapToStoreProduct(row), 1))
    ensures TotalPrice(Added(items, MapToStoreProduct(row), 1)) == TotalPrice(items) + row.price
  {
    AddToCartEntry(items, MapToStoreProduct(row), 1);
    AddToCartTotals(items, MapToStoreProduct(row), 1);
  }

  /** The route segment of a category's detail pages. */
  function RouteSegment(category: Category): string {
    if category == Gadget then "iqos" else "terea"
  }

  /** The tile's link: `/products/<segment>/<slug>`. */
  function DetailPath(row: ProductRow): (path: string)
    ensures |path| > 10 + |row.slug| && path[..10] == "/products/"
    ensures path[|path| - |row.slug|..] == row.slug
  {
    "/products/" + RouteSegment(row.category) + "/" + row.slug
  }

  /** The link parses back into the segment of the row's category and the
      row's slug, provided the slug holds no `/`. */
  lemma DetailPathParses(row: ProductRow)
    requires '/' !in row.slug
    ensures Split(DetailPath(row), '/') == ["", "products", RouteSegment(row.category), row.slug]
    ensures RouteSegment(row.category) == "iqos" <==> row.category == Gadget
  {
    var parts := ["", "products", RouteSegment(row.category), row.slug];
    DetailPathJoins(row);
    assert forall i :: 0 <= i < |parts| ==> '/' !in parts[i];
    SplitJoin(parts, '/');
  }

  /** The link is the `/`-join of its parts. */
  lemma DetailPathJoins(row: ProductRow)
    ensures Join(["", "products", RouteSegment(row.category), row.slug], "/") == DetailPath(row)
  {
    var segment := RouteSegment(row.category);
    var inner := Join([segment, row.slug], "/");
    var middle := Join(["products", segment, row.slug], "/");
    var whole := Join(["", "products", segment, row.slug], "/");
    assert [segment, row.slug][1..] == [row.slug];
    assert Join([row.slug], "/") == row.slug;
    assert inner == segment + "/" + row.slug;
    assert ["products", segment, row.slug][1..] == [segment, row.slug];
    assert middle == "products" + "/" + inner;
    assert ["", "products", segment, row.slug][1..] == ["products", segment, row.slug];
    assert whole == "" + "/" + middle;
    assert "" + "/" + ("products" + "/" + (segment + "/" + row.slug)) == "/products/" + segment + "/" + row.slug;
  }

  /** The five origins the tile translates, keyed by lower-case name. */
  const Origins: map<string, string> := map[
    "armenia" := "Армения",
    "kazakhstan" := "Казахстан",
    "russia" := "Россия",
    "japan" := "Япония",
    "italy" := "Италия"
  ]

  /** The origin caption: the table entry for the lower-cased origin, or the
      origin as written when the table has none. */
  function OriginLabel(origin: string): (caption: string)
    ensures ToLower(origin) in Origins ==> caption == Origins[ToLower(origin)]
    ensures ToLower(origin) !in Origins ==> caption == origin
  {
    var key := ToLower(origin);
    if key in Origins && Origins[key] != "" then Origins[key] else origin
  }

  lemma LowerCaseFixed(s: string)
    requires forall i :: 0 <= i < |s| ==> !('A' <= s[i] <= 'Z')
    ensures ToLower(s) == s
  {
  }

  /** Every table key is translated however it is capitalised, and two
      spellings that differ only in case get the same caption. */
  lemma OriginLabelIgnoresCase(origin: string, other: string)
    requires ToLower(origin) == ToLower(other)
    ensures OriginLabel(origin) == OriginLabel(other) || ToLower(origin) !in Origins
    ensures forall key :: key in Origins ==> OriginLabel(key) == Origins[key]
  {
    forall key | key in Origins
      ensures OriginLabel(key) == Origins[key]
    {
      assert key in {"armenia", "kazakhstan", "russia", "japan", "italy"};
      LowerCaseFixed(key);
    }
  }

  /** The flavours caption: a list joined with `, `, a non-empty text as it
      is; other values are not captioned. */
  function FlavorsLabel(flavors: Json): (caption: Option<string>)
    ensures caption.Some? <==> flavors.JStrList? || (flavors.JStr? && flavors.text != "")
    ensures flavors.JStr? && caption.Some? ==> caption.value == flavors.text
  {
    match flavors
    case JStrList(texts) => Some(Join(texts, ", "))
    case JStr(text) => if text != "" then Some(text) else None
    case _ => None
  }

  /** Every part but the first, with the space `, ` puts before it. */
  function Spaced(parts: seq<string>): (r: seq<string>)
    requires |parts| >= 1
    ensures |r| == |parts| && r[0] == parts[0]
    ensures forall i :: 1 <= i < |parts| ==> r[i] == " " + parts[i]
  {
    [parts[0]] + seq(|parts| - 1, i requires 0 <= i < |parts| - 1 => " " + parts[i + 1])
  }

  /** Putting a space before the first part puts it before the whole join. */
  lemma JoinSpaceFirst(first: string, rest: seq<string>)
    ensures Join([" " + first] + rest, ",") == " " + Join([first] + rest, ",")
  {
    var u := [" " + first] + rest;
    var t := [first] + rest;
    assert u[0] == " " + first && t[0] == first;
    assert u[1..] == rest && t[1..] == rest;
    if rest != [] {
      var j := Join(rest, ",");
      assert (" " + first) + "," + j == " " + (first + "," + j);
    }
  }

  /** `Spaced` of a list of two or more parts: the first part, then the
      second behind a space, then the spaced rest. */
  lemma SpacedCons(parts: seq<string>)
    requires |parts| > 1
    ensures Spaced(parts[1..]) == [parts[1]] + Spaced(parts[1..])[1..]
    ensures Spaced(parts) == [parts[0]] + ([" " + parts[1]] + Spaced(parts[1..])[1..])
  {
    var tail := Spaced(parts[1..]);
    assert tail[0] == parts[1];
    var spaced := Spaced(parts);
    var expected := [parts[0]] + ([" " + parts[1]] + tail[1..]);
    assert |spaced| == |expected|;
    forall i | 0 <= i < |spaced| ensures spaced[i] == expected[i] {
      if i >= 2 {
        assert tail[i - 1] == " " + parts[1..][i - 1];
      }
    }
  }

  /** A join of two or more parts: the first, the separator, the join of the
      rest. */
  lemma JoinCons(first: string, rest: seq<string>, sep: string)
    requires rest != []
    ensures Join([first] + rest, sep) == first + sep + Join(rest, sep)
  {
    assert ([first] + rest)[1..] == rest;
  }

  lemma {:induction false} JoinSpaced(parts: seq<string>)
    requires |parts| >= 1
    ensures Join(parts, ", ") == Join(Spaced(parts), ",")
  {
    if |parts| > 1 {
      var rest := parts[1..];
      var tail := Spaced(rest);
      JoinSpaced(rest);
      SpacedCons(parts);
      JoinSpaceFirst(parts[1], tail[1..]);
      JoinCons(parts[0], [" " + parts[1]] + tail[1..], ",");
      var joinedTail := Join(tail, ",");
      assert Join(parts, ", ") == parts[0] + ", " + joinedTail;
      assert Join(Spaced(parts), ",") == parts[0] + "," + (" " + joinedTail);
    }
  }

  /** The flavours caption of a non-empty list of flavours without commas
      splits back on `,` into the flavours, each but the first behind the one
      space the separator adds. */
  lemma FlavorsLabelSplitsBack(texts: seq<string>)
    requires |texts| >= 1
    requires forall i :: 0 <= i < |texts| ==> ',' !in texts[i]
    ensures FlavorsLabel(JStrList(texts)).Some?
    ensures Split(FlavorsLabel(JStrList(texts)).value, ',') == Spaced(texts)
  {
    JoinSpaced(texts);
    var spaced := Spaced(texts);
    forall i | 0 <= i < |spaced| ensures ',' !in spaced[i] {
      if i > 0 {
        assert spaced[i] == " " + texts[i];
      }
    }
    SplitJoin(spaced, ',');
  }

  /** A device with a truthy text colour shows its colour. */
  predicate ShowsColor(row: ProductRow) {
    row.category == Gadget && Truthy(Attribute(row, "color")) && TextAttribute(row, "color").Some?
  }

  /** A stick pack with truthy flavours that have a caption shows them. */
  predicate ShowsFlavors(row: ProductRow) {
    row.category == Sticks && Truthy(Attribute(row, "flavors")) && FlavorsLabel(row.attributes["flavors"]).Some?
  }

  /** A stick pack with a truthy text origin shows it, translated. */
  predicate ShowsOrigin(row: ProductRow) {
    row.category == Sticks && Truthy(Attribute(row, "origin")) && TextAttribute(row, "origin").Some?
  }

  /** The captions under a tile's title: the colour of a device, the flavours
      and translated origin of a stick pack, each only when present. */
  function Captions(row: ProductRow): (captions: seq<string>)
    ensures |captions| <= 2
  {
    var color := if ShowsColor(row) then ["Цвет: " + TextAttribute(row, "color").value] else [];
    var flavors := if ShowsFlavors(row) then [FlavorsLabel(row.attributes["flavors"]).value] else [];
    var origin := if ShowsOrigin(row) then [OriginLabel(TextAttribute(row, "origin").value)] else [];
    color + flavors + origin
  }

  /** A device shows exactly its colour caption when it has one, and nothing
      otherwise; a stick pack shows its flavours first and its translated
      origin last, each exactly when present, and never a colour. */
  lemma CaptionsFollowCategory(row: ProductRow)
    ensures row.category == Gadget ==> |Captions(row)| <= 1
    ensures row.category == Gadget && Captions(row) != [] ==>
              Captions(row) == ["Цвет: " + TextAttribute(row, "color").value] && TextAttribute(row, "color").value != ""
    ensures ShowsColor(row) ==> Captions(row) == ["Цвет: " + TextAttribute(row, "color").value]
    ensures row.category == Gadget && !ShowsColor(row) ==> Captions(row) == []
    ensures row.category == Sticks ==> |Captions(row)| <= 2
    ensures row.category == Sticks ==>
              |Captions(row)| == (if ShowsFlavors(row) then 1 else 0) + (if ShowsOrigin(row) then 1 else 0)
    ensures ShowsFlavors(row) ==> |Captions(row)| >= 1 && Captions(row)[0] == FlavorsLabel(row.attributes["flavors"]).value
    ensures ShowsOrigin(row) ==>
              Captions(row)[|Captions(row)| - 1] == OriginLabel(TextAttribute(row, "origin").value)
  {
  }

  /** The badges, in display order. */
  function BadgeLabels(badges: Badges): (labels: seq<string>)
    ensures "NEW" in labels <==> badges.isNew
    ensures "HIT" in labels <==> badges.isHit
    ensures "EXCLUSIVE" in labels <==> badges.isExclusive
    ensures forall i, j :: 0 <= i < j < |labels| ==> labels[i] != labels[j]
  {
    (if badges.isNew then ["NEW"] else [])
    + (if badges.isHit then ["HIT"] else [])
    + (if badges.isExclusive then ["EXCLUSIVE"] else [])
  }

  /** NEW comes before HIT, which comes before EXCLUSIVE. */
  lemma BadgeOrder(badges: Badges)
    ensures BadgeLabels(badges) == [] <==> !badges.isNew && !badges.isHit && !badges.isExclusive
    ensures badges.isNew ==> BadgeLabels(badges)[0] == "NEW"
    ensures badges.isExclusive ==> BadgeLabels(badges)[|BadgeLabels(badges)| - 1] == "EXCLUSIVE"
    ensures |BadgeLabels(badges)| == (if badges.isNew then 1 else 0) + (if badges.isHit then 1 else 0) + (if badges.isExclusive then 1 else 0)
  {
  }

  /** The tile disables its add button exactly for rows out of stock. */
  function AddDisabled(row: ProductRow): (disabled: bool)
    ensures CartButton.ButtonFor(true, [], row.id, disabled) ==
              CartButton.AddButton(!row.inStock, if row.inStock then CartButton.AddLabel else CartButton.OutOfStockLabel)
  {
    !row.inStock
  }

  /** An out-of-stock product that is not in the cart shows a disabled
      "Нет в наличии" button; one already in the cart still shows the
      stepper, whose "+" is not disabled. */
  lemma OutOfStockButton(items: seq<CartItem>, row: ProductRow)
    requires QuantitiesPositive(items) && !row.inStock
    ensures Find(items, row.id).None? ==>
              CartButton.ButtonFor(true, items, MapToStoreProduct(row).id, AddDisabled(row))
                == CartButton.AddButton(true, CartButton.OutOfStockLabel)
    ensures Find(items, row.id).Some? ==>
              CartButton.ButtonFor(true, items, MapToStoreProduct(row).id, AddDisabled(row)).Stepper?
  {
  }
}

=== FILE: product_filters.dfy ===
/** The catalog's filter sidebar (`components/ProductFilters.tsx`). Every
    change rewrites the query parameters of the current location and sends the
    shopper back to page 1; the two price boxes are local text state that is
    written to the location only by "apply" and re-read from it whenever the
    location changes. */
module Filters {
  import opened UrlParams

  /** `updateParams`: every filter change restarts at page 1. */
  function WithFirstPage(params: map<string, string>): map<string, string> {
    params["page" := "1"]
  }

  /** `searchParams.get(sectionId) === value`: the option is ticked. */
  predicate IsChecked(params: map<string, string>, sectionId: string, value: string)
    ensures IsChecked(params, sectionId, value) ==> sectionId in params
    ensures value != "" ==> (IsChecked(params, sectionId, value) <==> GetOrEmpty(params, sectionId) == value)
  {
    sectionId in params && params[sectionId] == value
  }

  /** A boolean section is on when its parameter is the text `true`. */
  predicate IsOn(params: map<string, string>, sectionId: string)
    ensures IsOn(params, sectionId) <==> GetOrEmpty(params, sectionId) == "true"
  {
    IsChecked(params, sectionId, "true")
  }

  /** `handleCheckboxChange`: a section holds at most one value; clicking the
      ticked option clears the section, clicking any other option replaces the
      section's value. */
  function ToggledOption(params: map<string, string>, sectionId: string, value: string): map<string, string> {
    var toggled := if IsChecked(params, sectionId, value) then params - {sectionId} else params[sectionId := value];
    WithFirstPage(toggled)
  }

  /** `handleBooleanChange`: the same toggle with the fixed value `true`. */
  function ToggledFlag(params: map<string, string>, sectionId: string): map<string, string> {
    ToggledOption(params, sectionId, "true")
  }

  /** Clicking an option flips whether it is ticked, turns every other option
      of that section off, restarts at page 1 and leaves every other parameter
      alone. */
  lemma ToggleFlips(params: map<string, string>, sectionId: string, value: string)
    requires sectionId != "page"
    ensures IsChecked(ToggledOption(params, sectionId, value), sectionId, value) <==> !IsChecked(params, sectionId, value)
    ensures forall other :: other != value ==> !IsChecked(ToggledOption(params, sectionId, value), sectionId, other)
    ensures ToggledOption(params, sectionId, value)["page"] == "1"
    ensures forall k :: k != sectionId && k != "page" ==>
              (k in ToggledOption(params, sectionId, value) <==> k in params)
              && (k in params ==> ToggledOption(params, sectionId, value)[k] == params[k])
  {
  }

  /** Clicking the same option twice restores the section, provided it held
      nothing or that option; when another option was selected, the second
      click clears the section instead. */
  lemma ToggleTwice(params: map<string, string>, sectionId: string, value: string)
    requires sectionId != "page"
    ensures sectionId !in params || params[sectionId] == value ==>
              ToggledOption(ToggledOption(params, sectionId, value), sectionId, value) == WithFirstPage(params)
    ensures sectionId in params && params[sectionId] != value ==>
              ToggledOption(ToggledOption(params, sectionId, value), sectionId, value) == WithFirstPage(params - {sectionId})
  {
    var once := ToggledOption(params, sectionId, value);
    var twice := ToggledOption(once, sectionId, value);
    if IsChecked(params, sectionId, value) {
      assert twice == WithFirstPage(params);
    } else if sectionId !in params {
      assert twice == WithFirstPage(params);
    } else {
      assert twice == WithFirstPage(params - {sectionId});
    }
  }

  /** A boolean switch flips: on becomes off and off becomes on, and the
      shopper goes back to page 1. */
  lemma FlagFlips(params: map<string, string>, sectionId: string)
    requires sectionId != "page"
    ensures IsOn(ToggledFlag(params, sectionId), sectionId) <==> !IsOn(params, sectionId)
    ensures ToggledFlag(params, sectionId)["page"] == "1"
  {
    ToggleFlips(params, sectionId, "true");
  }

  /** `applyPriceFilter`'s parameter edit: a non-empty box sets its bound, an
      empty one removes it. */
  function WithPriceBounds(params: map<string, string>, minPrice: string, maxPrice: string): map<string, string> {
    var withMin := if minPrice != "" then params["minPrice" := minPrice] else params - {"minPrice"};
    var withMax := if maxPrice != "" then withMin["maxPrice" := maxPrice] else withMin - {"maxPrice"};
    WithFirstPage(withMax)
  }

  /** Reading the price boxes back from the applied location (`get(...) || ''`)
      gives exactly what was typed, and no other parameter but the page moves. */
  lemma PriceRoundTrip(params: map<string, string>, minPrice: string, maxPrice: string)
    ensures GetOrEmpty(WithPriceBounds(params, minPrice, maxPrice), "minPrice") == minPrice
    ensures GetOrEmpty(WithPriceBounds(params, minPrice, maxPrice), "maxPrice") == maxPrice
    ensures WithPriceBounds(params, minPrice, maxPrice)["page"] == "1"
    ensures forall k :: k != "minPrice" && k != "maxPrice" && k != "page" ==>
              (k in WithPriceBounds(params, minPrice, maxPrice) <==> k in params)
              && (k in params ==> WithPriceBounds(params, minPrice, maxPrice)[k] == params[k])
  {
  }

  /** The sidebar's state: the location it shows and the two price boxes. */
  class ProductFilters {
    var location: Location
    var minPrice: string
    var maxPrice: string

    /** The price boxes show the bounds of the current location. */
    ghost predicate Synced()
      reads this
    {
      minPrice == GetOrEmpty(location.params, "minPrice") && maxPrice == GetOrEmpty(location.params, "maxPrice")
    }

    /** The boxes start from the location's bounds. */
    constructor(location: Location)
      ensures this.location == location && Synced()
    {
      this.location := location;
      minPrice := GetOrEmpty(location.params, "minPrice");
      maxPrice := GetOrEmpty(location.params, "maxPrice");
    }

    /** Typing in the lower price box; the location does not change. */
    method SetMinPrice(text: string)
      modifies this
      ensures minPrice == text && maxPrice == old(maxPrice) && location == old(location)
    {
      minPrice := text;
    }

    /** Typing in the upper price box; the location does not change. */
    method SetMaxPrice(text: string)
      modifies this
      ensures maxPrice == text && minPrice == old(minPrice) && location == old(location)
    {
      maxPrice := text;
    }

    /** `router.replace` on the same pathname, followed by the effect that
        re-reads both price boxes from the new location. */
    method Navigate(params: map<string, string>)
      modifies this
      ensures location == Location(old(location.pathname), params)
      ensures Synced()
    {
      location := Location(location.pathname, params);
      minPrice := GetOrEmpty(params, "minPrice");
      maxPrice := GetOrEmpty(params, "maxPrice");
    }

    /** A click on an option of a checkbox section. Text typed into the price
        boxes but not applied is replaced by the location's bounds. */
    method HandleCheckboxChange(sectionId: string, value: string)
      modifies this
      ensures location == Location(old(location.pathname), ToggledOption(old(location.params), sectionId, value))
      ensures Synced()
    {
      Navigate(ToggledOption(location.params, sectionId, value));
    }

    /** A click on a boolean switch. */
    method HandleBooleanChange(sectionId: string)
      modifies this
      ensures location == Location(old(location.pathname), ToggledFlag(old(location.params), sectionId))
      ensures sectionId != "page" ==> (IsOn(location.params, sectionId) <==> !IsOn(old(location.params), sectionId))
      ensures Synced()
    {
      if sectionId != "page" {
        FlagFlips(location.params, sectionId);
      }
      Navigate(ToggledFlag(location.params, sectionId));
    }

    /** "Apply": the typed bounds go into the location and the boxes keep
        showing what was typed. */
    method ApplyPriceFilter()
      modifies this
      ensures location == Location(old(location.pathname), WithPriceBounds(old(location.params), old(minPrice), old(maxPrice)))
      ensures minPrice == old(minPrice) && maxPrice == old(maxPrice)
      ensures Synced()
    {
      PriceRoundTrip(location.params, minPrice, maxPrice);
      Navigate(WithPriceBounds(location.params, minPrice, maxPrice));
    }

    /** "Reset": both boxes are emptied and the location loses every
        parameter, the page and the sort order included. */
    method HandleClearFilters()
      modifies this
      ensures location == Location(old(location.pathname), map[])
      ensures minPrice == "" && maxPrice == ""
      ensures Synced()
    {
      minPrice := "";
      maxPrice := "";
      Navigate(map[]);
    }
  }
}

=== FILE: product_grid.dfy ===
/** The client-side paged grid (`components/ProductGrid.tsx`): it holds the
    whole product list and a current page in component state, shows one slice
    of the list and moves between pages with Prev, Next and the page buttons. */
module Grid {
  import opened Wrappers
  import opened IntMath
  import opened Products
  import Pagination

  /** `items.slice((page - 1) * perPage, page * perPage)`: both bounds are
      clamped to the list length, as `Array.prototype.slice` does. */
  function PageItems<T>(items: seq<T>, page: int, perPage: nat): (r: seq<T>)
    requires page >= 1 && perPage > 0
    ensures |r| <= perPage
  {
    var start := Min((page - 1) * perPage, |items|);
    var end := Min(page * perPage, |items|);
    items[start..end]
  }

  /** Pages 1 … n laid end to end. */
  function FirstPages<T>(items: seq<T>, n: nat, perPage: nat): seq<T>
    requires perPage > 0
  {
    if n == 0 then [] else FirstPages(items, n - 1, perPage) + PageItems(items, n, perPage)
  }

  lemma {:induction false} FirstPagesPrefix<T>(items: seq<T>, n: nat, perPage: nat)
    requires perPage > 0
    ensures FirstPages(items, n, perPage) == items[..Min(n * perPage, |items|)]
  {
    if n > 0 {
      FirstPagesPrefix(items, n - 1, perPage);
      var a := Min((n - 1) * perPage, |items|);
      var b := Min(n * perPage, |items|);
      assert items[..a] + items[a..b] == items[..b];
    }
  }

  /** The pages of the grid, read in order, show every product exactly once
      and in list order. */
  lemma PagesCoverProducts<T>(items: seq<T>, perPage: nat)
    requires perPage > 0
    ensures FirstPages(items, Pagination.TotalPages(|items|, perPage), perPage) == items
  {
    var n := Pagination.TotalPages(|items|, perPage);
    FirstPagesPrefix(items, n, perPage);
    assert items[..|items|] == items;
  }

  /** A page within 1 … totalPages is never empty, and a page past the end is. */
  lemma PageItemsInRange<T>(items: seq<T>, page: int, perPage: nat)
    requires page >= 1 && perPage > 0
    ensures page <= Pagination.TotalPages(|items|, perPage) ==> |PageItems(items, page, perPage)| >= 1
    ensures page > Pagination.TotalPages(|items|, perPage) ==> PageItems(items, page, perPage) == []
  {
    var n := Pagination.TotalPages(|items|, perPage);
    var start := (page - 1) * perPage;
    assert page * perPage == start + perPage;
    if page <= n {
      MulMonotone(page - 1, n - 1, perPage);
      assert start < |items|;
    } else {
      MulMonotone(n, page - 1, perPage);
      assert start >= |items|;
    }
  }

  /** The button row under the grid. */
  datatype GridControls = GridControls(prevDisabled: bool, pages: seq<int>, active: int, nextDisabled: bool)

  datatype GridView =
    | NotFound
    | Grid(visible: seq<ProductRow>, controls: Option<GridControls>)

  /** What the component renders for a product list and a current page. */
  function View(products: seq<ProductRow>, page: int, perPage: nat): (view: GridView)
    requires page >= 1 && perPage > 0
    ensures view.NotFound? <==> products == []
    ensures view.Grid? ==> view.visible == PageItems(products, page, perPage)
    ensures view.Grid? ==> (view.controls.Some? <==> Pagination.TotalPages(|products|, perPage) > 1)
    ensures view.Grid? && view.controls.Some? ==>
              && view.controls.value.pages == Pagination.PageNumbers(Pagination.TotalPages(|products|, perPage))
              && view.controls.value.active == page
              && (view.controls.value.prevDisabled <==> page == 1)
              && (view.controls.value.nextDisabled <==> page == Pagination.TotalPages(|products|, perPage))
  {
    var total := Pagination.TotalPages(|products|, perPage);
    if products == [] then NotFound
    else
      Grid(PageItems(products, page, perPage),
           if total > 1
           then Some(GridControls(page == 1, Pagination.PageNumbers(total), page, page == total))
           else None)
  }

  /** The component's state: the list it was given and the page it shows. */
  class ProductGrid {
    const products: seq<ProductRow>
    const itemsPerPage: nat
    var currentPage: int

    /** The current page is a real page (page 1 when there are none). */
    ghost predicate Valid()
      reads this
    {
      itemsPerPage > 0 && 1 <= currentPage <= Max(1, Pagination.TotalPages(|products|, itemsPerPage))
    }

    constructor(products: seq<ProductRow>, itemsPerPage: nat := Pagination.DefaultItemsPerPage)
      requires itemsPerPage > 0
      ensures this.products == products && this.itemsPerPage == itemsPerPage
      ensures currentPage == 1 && Valid()
    {
      this.products := products;
      this.itemsPerPage := itemsPerPage;
      currentPage := 1;
    }

    /** The slice of the list on the current page. */
    function Visible(): (visible: seq<ProductRow>)
      reads this
      requires Valid()
      ensures products != [] ==> View(products, currentPage, itemsPerPage).Grid?
                                 && View(products, currentPage, itemsPerPage).visible == visible
      ensures |visible| <= itemsPerPage
      ensures products != [] ==> |visible| >= 1
    {
      ValidPageShowsProducts(products, currentPage, itemsPerPage);
      PageItems(products, currentPage, itemsPerPage)
    }

    /** Prev: `Math.max(1, p - 1)`. */
    method Prev()
      requires Valid()
      modifies this
      ensures currentPage == Max(1, old(currentPage) - 1)
      ensures Valid()
    {
      currentPage := Max(1, currentPage - 1);
    }

    /** Next: `Math.min(totalPages, p + 1)`; the button exists only when there
      is more than one page. */
    method Next()
      requires Valid() && Pagination.TotalPages(|products|, itemsPerPage) > 1
      modifies this
      ensures currentPage == Min(Pagination.TotalPages(|products|, itemsPerPage), old(currentPage) + 1)
      ensures Valid()
    {
      currentPage := Min(Pagination.TotalPages(|products|, itemsPerPage), currentPage + 1);
    }

    /** A page button: one exists for each page 1 … totalPages. */
    method SelectPage(page: int)
      requires Valid() && 1 <= page <= Pagination.TotalPages(|products|, itemsPerPage)
      modifies this
      ensures currentPage == page && Valid()
    {
      currentPage := page;
    }
  }

  /** Whatever the buttons do, the grid keeps showing a non-empty slice of a
      non-empty list. */
  lemma ValidPageShowsProducts(products: seq<ProductRow>, page: int, perPage: nat)
    requires perPage > 0 && 1 <= page <= Max(1, Pagination.TotalPages(|products|, perPage))
    ensures products != [] ==> |PageItems(products, page, perPage)| >= 1
  {
    if products != [] {
      Pagination.HiddenWhenOnePage(|products|, perPage);
      PageItemsInRange(products, page, perPage);
    }
  }
}

=== FILE: sort_select.dfy ===
/** The sort drop-down (`components/SortSelect.tsx`): its value is the `sort`
    query parameter, and choosing an option rewrites that one parameter. */
module Sorting {
  import opened Wrappers
  import opened UrlParams
  import Catalog

  /** `searchParams.get('sort') || ''` */
  function CurrentSort(params: map<string, string>): (sort: string)
    ensures "sort" !in params ==> sort == ""
    ensures "sort" in params ==> sort == params["sort"]
  {
    GetOrEmpty(params, "sort")
  }

  /** The option values of the drop-down; the empty one is "default". */
  const SortOptions: seq<string> := ["", "price_asc", "price_desc", "newest"]

  /** `handleSortChange`: a non-empty choice sets `sort`, the default removes
      it. Unlike the filters, the current page is kept. */
  function SortChanged(location: Location, value: string): (next: Location)
    ensures next.pathname == location.pathname
    ensures value != "" ==> "sort" in next.params && next.params["sort"] == value
    ensures value == "" ==> "sort" !in next.params
    ensures forall k :: k != "sort" ==>
              (k in next.params <==> k in location.params)
              && (k in location.params ==> next.params[k] == location.params[k])
  {
    var params := if value != "" then location.params["sort" := value] else location.params - {"sort"};
    Location(location.pathname, params)
  }

  /** The sort parameter as the catalog page hands it to the query: absent
      when the location has none. */
  function SortParam(params: map<string, string>): Option<string> {
    if "sort" in params then Some(params["sort"]) else None
  }

  /** The drop-down shows the option just chosen, and every option it offers
      reaches the catalog query as the ordering it names; the default falls
      back to ordering by id. */
  lemma SortChoiceRoundTrip(location: Location, value: string)
    requires value in SortOptions
    ensures CurrentSort(SortChanged(location, value).params) == value
    ensures Catalog.SortClause(SortParam(SortChanged(location, value).params)) ==
              if value == "" then Catalog.Order("id", true) else Catalog.SortTable[value]
  {
    Catalog.SortDispatch(SortParam(SortChanged(location, value).params));
  }
}

=== FILE: text.dfy ===
/** String helpers shared by the storefront model: `Array.prototype.join`,
    splitting on one character (its inverse), decimal text of page numbers and
    the `Number(...)` reading of it, and lower-casing for table lookups. */
module Text {
  import opened Wrappers

  /** `parts.join(sep)`: the parts in order with `sep` between neighbours. */
  function Join(parts: seq<string>, sep: string): string
  {
    if |parts| == 0 then ""
    else if |parts| == 1 then parts[0]
    else parts[0] + sep + Join(parts[1..], sep)
  }

  /** Splitting on a single character; the inverse of `Join` on parts that do
      not contain that character. */
  function Split(s: string, sep: char): (r: seq<string>)
    ensures |r| >= 1
  {
    if s == [] then [""]
    else
      var rest := Split(s[1..], sep);
      if s[0] == sep then [""] + rest
      else [[s[0]] + rest[0]] + rest[1..]
  }

  lemma {:induction false} SplitWithoutSeparator(p: string, sep: char)
    requires sep !in p
    ensures Split(p, sep) == [p]
  {
    if p != [] {
      assert sep !in p[1..] by {
        forall i | 0 <= i < |p[1..]| ensures p[1..][i] != sep {
          assert p[1..][i] == p[i + 1];
        }
      }
      SplitWithoutSeparator(p[1..], sep);
      assert [p[0]] + p[1..] == p;
    }
  }

  lemma {:induction false} SplitAfterPart(p: string, sep: char, t: string)
    requires sep !in p
    ensures Split(p + [sep] + t, sep) == [p] + Split(t, sep)
  {
    var s := p + [sep] + t;
    if p == [] {
      assert s[0] == sep && s[1..] == t;
    } else {
      assert sep !in p[1..] by {
        forall i | 0 <= i < |p[1..]| ensures p[1..][i] != sep {
          assert p[1..][i] == p[i + 1];
        }
      }
      assert s[0] == p[0] && s[1..] == p[1..] + [sep] + t;
      SplitAfterPart(p[1..], sep, t);
      assert [p[0]] + p[1..] == p;
    }
  }

  /** Splitting a joined list on its separator gives the list back, provided
      there is at least one part and no part contains the separator. */
  lemma {:induction false} SplitJoin(parts: seq<string>, sep: char)
    requires |parts| >= 1
    requires forall i :: 0 <= i < |parts| ==> sep !in parts[i]
    ensures Split(Join(parts, [sep]), sep) == parts
  {
    if |parts| == 1 {
      SplitWithoutSeparator(parts[0], sep);
    } else {
      SplitJoin(parts[1..], sep);
      SplitAfterPart(parts[0], sep, Join(parts[1..], [sep]));
      assert parts == [parts[0]] + parts[1..];
    }
  }

  predicate IsDigit(c: char) {
    '0' <= c <= '9'
  }

  predicate AllDigits(s: string) {
    forall i :: 0 <= i < |s| ==> IsDigit(s[i])
  }

  function DigitChar(d: nat): (c: char)
    requires d < 10
    ensures IsDigit(c)
  {
    ('0' as int + d) as char
  }

  /** `n.toString()` for a non-negative integer: shortest decimal text. */
  function DecimalText(n: nat): (r: string)
    ensures |r| >= 1 && AllDigits(r)
    ensures |r| > 1 ==> r[0] != '0'
  {
    if n < 10 then [DigitChar(n)]
    else DecimalText(n / 10) + [DigitChar(n % 10)]
  }

  /** Value of a string of decimal digits, read left to right. */
  function DigitsValue(s: string): nat
    requires AllDigits(s)
  {
    if s == [] then 0
    else DigitsValue(s[..|s| - 1]) * 10 + (s[|s| - 1] as int - '0' as int)
  }

  /** `Number(s)` restricted to what the model represents: a non-empty string
      of decimal digits reads as its value, anything else as "not a number". */
  function ParseDecimal(s: string): Option<nat>
  {
    if s != [] && AllDigits(s) then Some(DigitsValue(s)) else None
  }

  /** Reading back the decimal text of a number gives the number. */
  lemma {:induction false} ParseDecimalText(n: nat)
    ensures ParseDecimal(DecimalText(n)) == Some(n)
  {
    var s := DecimalText(n);
    if n < 10 {
      assert s[..|s| - 1] == [];
    } else {
      var prefix := DecimalText(n / 10);
      ParseDecimalText(n / 10);
      assert s == prefix + [DigitChar(n % 10)];
      assert s[..|s| - 1] == prefix;
      assert s[|s| - 1] as int - '0' as int == n % 10;
      assert DigitsValue(s) == DigitsValue(prefix) * 10 + n % 10;
      assert DigitsValue(prefix) == n / 10;
    }
  }

  /** ASCII part of `String.prototype.toLowerCase`. */
  function ToLower(s: string): (r: string)
    ensures |r| == |s|
    ensures forall i :: 0 <= i < |r| ==> !('A' <= r[i] <= 'Z')
    ensures forall i :: 0 <= i < |s| && !('A' <= s[i] <= 'Z') ==> r[i] == s[i]
    ensures forall i :: 0 <= i < |s| && 'A' <= s[i] <= 'Z' ==> r[i] == (s[i] as int + 32) as char
  {
    seq(|s|, i requires 0 <= i < |s| => if 'A' <= s[i] <= 'Z' then (s[i] as int + 32) as char else s[i])
  }
}

=== FILE: url_params.dfy ===
/** The browser location the client components read and navigate to: a
    pathname and its query parameters (`URLSearchParams`, one value per key). */
module UrlParams {

  datatype Location = Location(pathname: string, params: map<string, string>)

  /** `searchParams.get(key) || ''` */
  function GetOrEmpty(params: map<string, string>, key: string): (v: string)
    ensures key in params ==> v == params[key]
    ensures key !in params ==> v == ""
  {
    if key in params then params[key] else ""
  }
}

=== FILE: wrappers.dfy ===
/** The optional value used wherever the storefront reads a field that may be
    `undefined` or `null`. */
module Wrappers {

  datatype Option<T> = None | Some(value: T) {

    /** The value, or `default` when there is none (the `x ?? d` of the source). */
    function GetOr(default: T): T {
      match this
      case Some(v) => v
      case None => default
    }
  }
}
